=== FILE: README.md ===
# DataCompatMC in Dafny

A model of the core of DataCompatMC. The tool reads Minecraft's generated block
report: for every block identifier, the declared properties (each an ordered list of
raw value strings) and every block state with its chosen values, numeric id and
default flag. It then:

- classifies each property as a boolean, an inclusive `u8` integer range or an
  enumeration;
- verifies that every state id follows the mixed-radix numbering from the block's
  base id. The last property a state names varies fastest;
- derives the base id and the default id;
- detects enumeration name and value collisions, optionally resolved by a rule
  table that renames an enumeration by its exact value list;
- compacts the blocks into an intermediary format. Enumerations go into one global
  table, and each block refers to them by name;
- compares two intermediary versions property by property.

It also models the older block pipeline (`src/blocks/raw/modern/`) on its own terms.
That pipeline has a different classifier and block reader, plus a conversion to
inclusive ranges. Lemmas relate the older pipeline to the live one.

## Layout

| file | module | models |
|---|---|---|
| wrappers.dfy | `Wrappers` | `Option` and `Result`, for `:-` |
| ordered_map.dfy | `OrderedMap` | insertion-ordered maps: `find_map`, `position`, `insert`, `extend` |
| u8_parse.dfy | `U8Parse` | `str::parse::<u8>` and decimal printing |
| property.dfy | `Property` | the live property-kind classifier |
| raw_block.dfy | `RawBlock` | raw blocks and states, `state_count`, `properties()` |
| mixed_radix.dfy | `MixedRadix` | the numbering: the verifier's loop, positional value, bounds, injectivity, decoding |
| identifier.dfy | `Identifier` | `namespace:location` parsing and display |
| rules.dfy | `Rules` | `"type"` → `"kind"` and renaming by value list |
| compact.dfy | `Compact` | the verifier and compactor |
| collisions.dfy | `Collisions` | the collision detector |
| compare.dfy | `Compare` | the property comparator and the command's report |
| modern_property.dfy | `ModernProperty` | the older classifier |
| modern_blocks.dfy | `ModernBlocks` | the older block reader |
| modern_convert.dfy | `ModernConvert` | the older conversion to the intermediary format |

## Modelling decisions

- **Maps.** A `LinkedHashMap` is a sequence of key/value pairs.
  - `OrderedMap.Lookup` is the first match, as `find_map` and `get` find it.
  - `OrderedMap.Insert` is hashlink's `insert`: an entry already under the key
    is taken out and the new entry goes to the back.
  - `OrderedMap.Extend` is `extend`, one `insert` per entry in order.
  - Hash maps whose order does not matter (`AHashMap`, `AHashSet`) are Dafny `map`
    and `set`.
- **Rule table.** The rule file format is not modelled; a rule table is a map
  from an exact, ordered value list to a name.
  - `collisions.rs:61` looks an enumeration up by its value list
    (`rule_data().get(&enum)`).
  - The `transform` that `de.rs` calls is modelled as the same lookup. An
    enumeration whose value list is a key takes the rule's name. Every other
    property keeps its name.
- **Empty block.** A block with no states, whose properties have a zero product,
  passes the state-count check. `de.rs:71` then indexes `states[0]` and panics. The
  model returns the error `NoStates` instead.
- **The older pipeline** is modelled next to the live one, not as part of it.
  - `modern/blocks.rs` builds the intermediary types of `data.rs`.
  - `modern/mod.rs` converts a different `RawBlockData` shape, with
    `(name, rename)` keys, into inclusive ranges.
  - Each is modelled as written.
- **Process exit.** Where the older classifier ends the process
  (`process::exit(DATAERR)`), the model returns the error value `Corrupted`.

### Behaviour of the code worth noting

- **Digit order.** The offset loop walks the state's *own* property order in
  reverse, not the block's declared order (`de.rs:87`). The two agree when a state
  lists its properties in declared order. `Compact.StateIdRange` bounds the id by
  the product of the declared sizes in that case.
- **LongerEnd.** `kinds.rs:7-8` documents `LongerEnd` for a base with more
  elements than the target, but `compare` (`kinds.rs:16-43`) never returns it. Its first loop computes
  the length of the common prefix. The prefix covers the whole base only when the
  base is a prefix of the target, and an unequal prefix is shorter. So
  `["a","b","c"]` against `["a","b"]` is `DifferentValues`, not `LongerEnd`
  (`Compare.LongerEndUnreachable`, `Compare.ExampleExtraValue`). A longer base
  whose values all occur in the target, such as `["a","b","a"]` against
  `["a","b"]`, is `DifferentOrdering` (`Compare.ExampleLongerBase`).
- **"type" in the collision pass.** The collision pass does not rename `"type"` to
  `"kind"` (`collisions.rs:53-67`). Only compaction does.
- **"type" and "kind" in one block.** The compact properties of a block are
  collected into a map after `"type"` is renamed to `"kind"` (`de.rs:139-164`). A
  block that declares both keeps one entry under `"kind"`: the later property's
  (`Compact.TypeAndKindClash`).
- **Malformed ranges.** The live verifier checks ids against the raw value lists
  and never classifies them (`de.rs:64-120`); the compactor then drops a property
  that fails to classify (`mod.rs:30-34`). The older reader ends the process
  on the same property (`modern/properties.rs:21-24`). So a block the live
  pipeline verifies can be one the older reader rejects
  (`ModernBlocks.RejectsWhatLiveAccepts`).
- **Reused enumeration names.** The global table is built with `extend`. A later
  block that reuses an enumeration name overwrites the earlier values instead of
  being ignored (`Compact.TableLastWins`), and the name moves to the back of the
  table (`OrderedMap.ExtendOrder`). The same holds for a repeated block
  identifier in the output list (`Compact.CompactFromPrefix`).

## Model

| member | source | states |
|---|---|---|
| U8Parse.ParseU8 | src/blocks/raw/property.rs:38-39 | a string parses as a `u8` exactly when it is an optional `+` followed by at least one decimal digit, with a value below 256; the result is the value of those digits |
| U8Parse.ParseShow | src/blocks/raw/property.rs:38-39 | the decimal form of every `u8` parses back to it |
| U8Parse.ExamplePlusZeros | src/blocks/raw/property.rs:38-39 | `+007` parses to 7: a leading `+` and leading zeros are accepted |
| Property.Classify | src/blocks/raw/property.rs:27-46 | each outcome holds exactly when its condition holds: Bool only for `["true","false"]`; BooleanTooLong and BooleanInvalidType for a leading `"true"`; Int when the first and last values parse, with those values as bounds; IntError when only the first parses; Enum, values kept verbatim, otherwise |
| Property.ClassifyRawValues | src/blocks/raw/property.rs:27-46 | every kind the classifier can produce is recovered from its canonical raw values (round trip) |
| Property.SingleNumberRange | src/blocks/raw/property.rs:38-42 | a single number is the range `[v, v]` |
| Property.FalseTrueIsEnum | src/blocks/raw/property.rs:28-36 | booleans are recognised by position: `["false","true"]` is an enumeration |
| RawBlock.StateWithDefaults | src/blocks/raw/mod.rs:37-44 | a missing state `properties` reads as empty and a missing `default` as false |
| RawBlock.BlockWithDefaults | src/blocks/raw/mod.rs:11-17 | a missing block `properties` reads as empty; every state takes its defaults |
| RawBlock.StateCount | src/blocks/raw/mod.rs:22-28 | the loop returns the product of the value-list sizes |
| RawBlock.ProductZero | src/blocks/raw/mod.rs:22-28 | the product is 1 for no properties and 0 exactly when some value list is empty |
| RawBlock.Properties | src/blocks/raw/mod.rs:30-34 | every property that classifies appears with its kind, nothing else does, and failures are dropped; the order is stated by `RawBlock.PropertiesAppend` |
| RawBlock.PropertiesSingle | src/blocks/raw/mod.rs:30-34 | one declared property yields itself with its kind, or nothing when it does not classify |
| RawBlock.PropertiesAppend | src/blocks/raw/mod.rs:30-34 | `filter_map` keeps declared order: the properties of a concatenation are those of each part, in turn |
| RawBlock.PropertiesAllClassify | src/blocks/raw/mod.rs:30-34 | when every property classifies, the `i`-th result is the `i`-th declared property with its kind |
| OrderedMap.Lookup | src/blocks/raw/de.rs:88-98 | absent exactly when no entry has the key; otherwise the value of an entry with that key |
| OrderedMap.IndexOf | src/blocks/raw/de.rs:99 | absent exactly when the value is missing; otherwise the first position holding it |
| OrderedMap.Insert | src/blocks/raw/de.rs:167 | after insertion the key holds the new value in the last entry, and the entries under every other key are those of the map before |
| OrderedMap.InsertKeys | src/blocks/raw/de.rs:167 | the keys after insertion are exactly the old keys and the inserted one |
| OrderedMap.InsertOther | src/blocks/raw/de.rs:167 | insertion leaves the value under every other key unchanged |
| OrderedMap.InsertLength | src/blocks/raw/de.rs:167 | in a map, insertion of a present key keeps the size and of a new key grows it by one |
| OrderedMap.InsertPrefix | src/blocks/raw/de.rs:167 | insertion keeps any prefix of the keys that does not hold the inserted key |
| OrderedMap.InsertDistinct | src/blocks/raw/de.rs:167 | inserting keeps keys pairwise distinct |
| OrderedMap.Extend | src/blocks/raw/de.rs:132-135 | `extend` grows the map by at most the extension's length |
| OrderedMap.ExtendOrder | src/blocks/raw/de.rs:132-135 | after `extend`, the old entries whose keys the extension does not mention come first, in their order, followed by the extension as a fresh map would hold it |
| OrderedMap.ExtendKeys | src/blocks/raw/de.rs:132-135 | the keys after `extend` are exactly the old keys and those of the extension |
| OrderedMap.ExtendLength | src/blocks/raw/de.rs:132-135 | in a map, `extend` never shrinks it |
| OrderedMap.ExtendEntries | src/blocks/raw/de.rs:132-135 | every entry after `extend` comes from the map or from the extension |
| OrderedMap.ExtendLastWins | src/blocks/raw/de.rs:132-135 | after `extend`, each key holds the value of its last occurrence in the extension, or its old value if the key does not occur there |
| MixedRadix.Scan | src/blocks/raw/de.rs:84-109 | with non-negative factors the loop never lowers the offset; its value is stated by `MixedRadix.ScanValue` |
| MixedRadix.ScanValue | src/blocks/raw/de.rs:84-109 | the verifier's `factor`/`prev_factor`/`offset` loop computes the positional value of the digits |
| MixedRadix.ValueBound | src/blocks/raw/de.rs:84-109 | with every index below its size, the offset is below the product of the sizes |
| MixedRadix.DecodeValue | src/blocks/raw/de.rs:84-109 | decoding an offset gives back the digits it came from |
| MixedRadix.ValueDecode | src/blocks/raw/de.rs:84-109 | every offset below the product of the sizes decodes to valid digits with that value |
| MixedRadix.ValueInjective | src/blocks/raw/de.rs:84-109 | different valid digits with the same sizes give different offsets |
| Compact.StateDigits | src/blocks/raw/de.rs:87-108 | digit extraction succeeds exactly when every named property is declared and every chosen value is in its list; each digit is that value's position and that list's length |
| Compact.OffsetLoop | src/blocks/raw/de.rs:84-109 | the inner loop fails only on an undeclared property or value |
| Compact.StateOffset | src/blocks/raw/de.rs:84-109 | started from 1, 1, 0, the loop fails as digit extraction does and otherwise yields the positional value of the digits |
| Compact.LastDefault | src/blocks/raw/de.rs:116-119 | the remembered default is the id of the last state flagged default, and absent exactly when none is flagged |
| Compact.CheckStates | src/blocks/raw/de.rs:74-120 | the state loop never reports a state-count error |
| Compact.CheckStatesSpec | src/blocks/raw/de.rs:74-120 | the state loop succeeds exactly when every state has the declared number of properties (`property_count`, src/blocks/raw/mod.rs:20), known names and values, and the id base + offset; then it returns the last flagged state's id |
| Compact.CheckStatesStep | src/blocks/raw/de.rs:74-119 | one step of the state loop: a consistent state passes its id on when it is flagged default; an inconsistent one stops the loop with an error |
| Compact.ConsistentOffset | src/blocks/raw/de.rs:76-115 | a state is consistent exactly when it has the declared number of properties and the offset loop yields its id minus the base id |
| Compact.Collapse | src/blocks/raw/de.rs:121-129 | a default equal to the base id is dropped; any other is kept |
| Compact.VerifyBlock | src/blocks/raw/de.rs:64-129 | a block verifies exactly when it is consistent; the count error is reported exactly when the count differs; the base is the first state's id; the default is the last flagged id, unless that is the base |
| Compact.StatesLossless | src/blocks/raw/de.rs:80-115 | two states of a verified block that name the same properties with different values have different ids |
| Compact.StateIdRange | src/blocks/raw/de.rs:64-115 | every state id lies in `[base, base + product)` |
| Compact.DefaultRoundTrip | src/blocks/raw/de.rs:116-129 | reading the compact default back gives the last flagged state's id, or the base id when no state is flagged |
| Rules.Normalize | src/blocks/raw/de.rs:32-36 | `"type"` becomes `"kind"`, the result is never `"type"`, and other names are unchanged |
| Rules.RuleName | src/blocks/intermediary/collisions.rs:59-62 | an enumeration whose value list is a rule key takes the rule's name; everything else keeps its name |
| Compact.Transform | src/blocks/raw/de.rs:27-43 | kinds are unchanged; an enumeration whose values are a rule key takes the rule's name; every other name is normalised |
| Compact.TransformIdempotent | src/blocks/raw/de.rs:27-43 | renaming a second time changes nothing |
| Compact.Enums | src/blocks/raw/de.rs:132-135 | the table entries are exactly the enumerations among the named kinds; the order is stated by `Compact.EnumsAppend` |
| Compact.EnumsSingle | src/blocks/raw/de.rs:132-135 | one property gives one table entry exactly when it is an enumeration |
| Compact.EnumsAppend | src/blocks/raw/de.rs:132-135 | table entries keep the order of the properties they come from |
| Compact.CompactEntries | src/blocks/raw/de.rs:139-163 | the mapped entries, before `collect`: one per property, in order, keyed by the normalised name; a boolean is written as the bool marker, a range as its bounds, and an enumeration as the table name `transform` gives it |
| Compact.CompactProperties | src/blocks/raw/de.rs:139-164 | `collect` into a map: keys pairwise distinct, at most one entry per property, and every property's normalised name present |
| Compact.CompactPropertiesLastWins | src/blocks/raw/de.rs:139-164 | each key holds the value of the last property mapped to it |
| Compact.CompactPropertiesEntries | src/blocks/raw/de.rs:139-164 | every collected entry is the mapping of some property |
| Compact.TypeAndKindClash | src/blocks/raw/de.rs:142-146 | a boolean `type` followed by an enumeration `kind` collect to the single entry `kind`, holding the enumeration |
| Compact.CompactFrom | src/blocks/raw/de.rs:55-171 | the output holds at most the blocks already written plus one block per input block |
| Compact.CompactFromKeys | src/blocks/raw/de.rs:63-167 | no identifier already written is lost, and every input block's identifier is written |
| Compact.CompactFromLength | src/blocks/raw/de.rs:63-167 | over a map of written blocks, the output is no shorter than what was already written |
| Compact.CompactFromPrefix | src/blocks/raw/de.rs:63-167 | identifiers already written stay in front, in order, unless an input block repeats one (`insert` then moves it to the back) |
| Compact.CompactAll | src/blocks/raw/de.rs:55-171 | the output holds at most one block per input block |
| Compact.CompactSucceeds | src/blocks/raw/de.rs:63-170 | compaction succeeds exactly when every block verifies |
| Compact.CompactFirstError | src/blocks/raw/de.rs:63-170 | a failure is the error of the first block that does not verify |
| Compact.ReferencesResolve | src/blocks/raw/de.rs:131-167 | in the output, every enumeration a block refers to is a key of the global table, no property key is `"type"`, and both maps have distinct keys |
| Compact.TableLastWins | src/blocks/raw/de.rs:132-135 | the table holds, for each enumeration name, the values of its last occurrence across the blocks |
| Compact.CompactBlocks | src/blocks/raw/de.rs:166-167 | with distinct identifiers, there is one compact block per input block, in order, with its verified ids |
| Collisions.ClassifyAll | src/blocks/intermediary/collisions.rs:125-131 | reading a block's properties fails exactly when one fails to classify; otherwise every property appears with its kind |
| Collisions.EnumPairs | src/blocks/intermediary/collisions.rs:53-67 | every enumeration is indexed under its rule name or its own name; nothing else is indexed |
| Collisions.Index | src/blocks/intermediary/collisions.rs:87-97 | indexing one enumeration adds its values to its name's set and its name to its values' set, and changes no other entry |
| Collisions.Scan | src/blocks/intermediary/collisions.rs:84-102 | the sets only grow; their contents are stated by `Collisions.ScanByName` and `Collisions.ScanByValues` |
| Collisions.ScanByName | src/blocks/intermediary/collisions.rs:93-97 | after the scan, a name's set is its old set plus every value list seen under it |
| Collisions.ScanByValues | src/blocks/intermediary/collisions.rs:88-92 | after the scan, a value list's set is its old set plus every name seen for it |
| Collisions.Retain | src/blocks/intermediary/collisions.rs:104-105 | exactly the entries whose set has more than one element remain, with their sets unchanged |
| Collisions.DetectFrom | src/blocks/intermediary/collisions.rs:81-110 | every entry of the result is a collision: its set has at least two elements |
| Collisions.Detect | src/blocks/intermediary/collisions.rs:77-111 | every entry of the result is a collision: its set has at least two elements |
| Collisions.DetectFails | src/blocks/intermediary/collisions.rs:84 | the pass fails exactly when some property of some block fails to classify |
| Collisions.DetectByName | src/blocks/intermediary/collisions.rs:81-110 | a name is kept exactly when it was seen with two or more distinct value lists, and it keeps all of them |
| Collisions.DetectByValues | src/blocks/intermediary/collisions.rs:81-110 | a value list is kept exactly when it was seen under two or more distinct names, and it keeps all of them |
| Collisions.EmptyIff | src/blocks/intermediary/collisions.rs:16-18 | `is_empty` holds exactly when no name has two value lists and no value list has two names |
| Collisions.NameCollision | src/blocks/intermediary/collisions.rs:93-104 | a name seen with two different value lists, even lists that differ only in order, is a name collision holding both |
| Collisions.ValueCollision | src/blocks/intermediary/collisions.rs:88-105 | a value list seen under two names is a value collision holding both |
| Collisions.OrderIrrelevant | src/blocks/intermediary/collisions.rs:81-105 | only the set of (name, values) pairs matters, not their order or repetition |
| Collisions.OnlyPropertiesMatter | src/blocks/intermediary/collisions.rs:84 | block identifiers and states do not affect the result |
| Compare.Compare | src/blocks/compare/kinds.rs:16-43 | the two loops return the whole-sequence verdict `Verdict`: Equal for equal lists, MissingEnd for a proper prefix, DifferentOrdering when every base value is in the target, DifferentValues otherwise |
| Compare.LongerEndUnreachable | src/blocks/compare/kinds.rs:20-35 | `LongerEnd` is never returned; a base that extends its target gets DifferentOrdering or DifferentValues |
| Compare.CompatibleIff | src/blocks/compare/kinds.rs:1-13 | the verdicts documented as compatible are exactly those where every base value exists in the target |
| Compare.ExampleExtraValue | src/blocks/compare/kinds.rs:29-41 | `["a","b","c"]` against `["a","b"]` is DifferentValues |
| Compare.ExampleReordered | src/blocks/compare/kinds.rs:36-41 | `["a","b"]` against `["b","a"]` is DifferentOrdering |
| Compare.ExampleLongerBase | src/blocks/compare/kinds.rs:5-8 | `["a","b","a"]` against `["a","b"]`, a longer base, is DifferentOrdering, not the documented LongerEnd |
| Compare.ExampleEmptyBase | src/blocks/compare/kinds.rs:29-31 | an empty base against a non-empty target is MissingEnd |
| Compare.Findings | src/blocks/compare/mod.rs:26-35 | at most one finding per base property; each comes from a base property, and every property that warrants one gets one; the order is stated by `Compare.FindingsAppend` |
| Compare.FindingsSingle | src/blocks/compare/mod.rs:26-35 | one base enumeration reports its finding, or nothing when the target's list is equal |
| Compare.FindingsAppend | src/blocks/compare/mod.rs:26-35 | findings come in the base version's order |
| Compare.FindingFor | src/blocks/compare/mod.rs:27-34 | no finding exactly when the target has the property with an equal value list; a finding names its property |
| Compare.FindingMeaning | src/blocks/compare/mod.rs:26-35 | a missing property is absent from the target; a divergence carries the non-Equal verdict against the target's list of the same name |
| Compare.SelfCompatible | src/blocks/compare/mod.rs:26-35 | a version compared with itself yields no finding |
| Identifier.Show | src/util/identifier.rs:16-20 | the displayed form is namespace, colon, location |
| Identifier.Parse | src/util/identifier.rs:46-66 | a parse succeeds only on input in the alphabets, and gives back the input when displayed or is a bare location in `minecraft`; an error carries the length of the longest location prefix of the text after `namespace:`, or of the whole input when no colon follows the namespace |
| Identifier.ParseShow | src/util/identifier.rs:46-87 | displaying then parsing gives back the identifier |
| Identifier.ParseLocationOnly | src/util/identifier.rs:53-56 | a bare location without a colon lands in the `minecraft` namespace |
| Identifier.ExampleLocation | src/util/identifier.rs:97-101 | `test1` parses to `minecraft:test1` |
| Identifier.ExampleFull | src/util/identifier.rs:103-106 | `test_2:other/value` parses to namespace `test_2` and location `other/value` |
| Identifier.ExampleLeftover | src/util/identifier.rs:109-115 | `test/2:other` is an error carrying 6 |
| Identifier.ExampleTwoColons | src/util/identifier.rs:52-60 | once `namespace:location` matched, the fallback is not tried: `a:b:c` is an error carrying the location length 1 |
| ModernProperty.Classify | src/blocks/raw/modern/properties.rs:12-28 | Bool exactly when `"true"` and `"false"` both occur; otherwise Int when the first and last values parse, Corrupted when only the first does, else Enum with the values verbatim |
| ModernProperty.RangeRoundTrip | src/blocks/raw/modern/properties.rs:17-20 | the half-open range, read back as inclusive bounds, gives the first and last values for every `u8` |
| ModernProperty.RangeEndWraps | src/blocks/raw/modern/properties.rs:20 | `["0","255"]` gives the half-open range `0..0`, because the end wraps |
| ModernProperty.AgreesWithLive | src/blocks/raw/modern/properties.rs:12-28 | against the live classifier, both agree except where both booleans occur, or where a leading `"true"` is an error in the live one and an enumeration here |
| ModernProperty.FalseTrueIsBool | src/blocks/raw/modern/properties.rs:14-16 | `["false","true"]` is a boolean here and an enumeration in the live classifier |
| ModernBlocks.AddKind | src/blocks/raw/modern/blocks.rs:48-50 | a (name, kind) pair is added only when it is new |
| ModernBlocks.ReadProperties | src/blocks/raw/modern/blocks.rs:44-53 | the property loop succeeds exactly when every property classifies; its only error is Corrupted |
| ModernBlocks.ReadPropertiesGlobal | src/blocks/raw/modern/blocks.rs:46-51 | the global list keeps what it held, gains exactly the block's (name, kind) pairs, and never holds a pair twice |
| ModernBlocks.StateId | src/blocks/raw/modern/blocks.rs:56-77 | an accepted state's id is the declared one |
| ModernBlocks.StateIdAccepted | src/blocks/raw/modern/blocks.rs:56-77 | a state is accepted exactly when it carries properties with known names and values and its id is base + offset |
| ModernBlocks.ReadStates | src/blocks/raw/modern/blocks.rs:55-82 | the state loop never reports an empty state list |
| ModernBlocks.ReadStatesSpec | src/blocks/raw/modern/blocks.rs:55-81 | the state loop accepts exactly when every state does, and then returns the last flagged state's id |
| ModernBlocks.FlaggedLive | src/blocks/raw/modern/blocks.rs:78-80 | the flagged state found here is the one the live verifier finds |
| ModernBlocks.ReadBlock | src/blocks/raw/modern/blocks.rs:41-86 | empty states is reported exactly when there are none; the base is the first state's id; a block without properties has default = base and leaves the global list alone |
| ModernBlocks.ReadBlockSpec | src/blocks/raw/modern/blocks.rs:42-85 | a block is read exactly when it is accepted: states present, and with properties, all classify, all states accepted, and a default flagged; the default is the last flagged id |
| ModernBlocks.ReadFrom | src/blocks/raw/modern/blocks.rs:37-90 | at most one block is added per input block |
| ModernBlocks.ReadFromKeys | src/blocks/raw/modern/blocks.rs:37-90 | no identifier already read is lost, and every input block's identifier is read |
| ModernBlocks.ReadFromLength | src/blocks/raw/modern/blocks.rs:37-90 | over a map of read blocks, the output is no shorter than what was already read |
| ModernBlocks.ReadFromPrefix | src/blocks/raw/modern/blocks.rs:37-90 | identifiers already read stay in front, in order, unless an input block repeats one |
| ModernBlocks.ReadList | src/blocks/raw/modern/blocks.rs:37-90 | the output holds at most one block per input block |
| ModernBlocks.ReadFromSpec | src/blocks/raw/modern/blocks.rs:37-90 | the list is read exactly when every block is accepted, and the global list has no duplicates |
| ModernBlocks.LiveImpliesAccepted | src/blocks/raw/modern/blocks.rs:44-85 | a block the live verifier accepts, with properties, state properties, a flagged default, and every property classifying under this older classifier, is accepted here with the same base and default ids |
| ModernBlocks.RejectsWhatLiveAccepts | src/blocks/raw/modern/blocks.rs:44-53 | the classification condition cannot be dropped: a block with the range `["5","x"]` verifies in the live pipeline, whose verifier reads the raw value lists, and is rejected here with CorruptedRange |
| ModernBlocks.MixedRangeCorrupt | src/blocks/raw/modern/properties.rs:17-24 | `["5","x"]`, a range whose last value does not parse, is Corrupted |
| ModernBlocks.MixedRangeLive | src/blocks/raw/de.rs:64-120 | the live verifier accepts the two-state block of `ModernBlocks.RejectsWhatLiveAccepts` |
| ModernBlocks.AcceptsWhatLiveRejects | src/blocks/raw/modern/blocks.rs:44-85 | without a state count check, a one-state block with a two-valued property is accepted here and rejected by the live verifier |
| ModernConvert.NewBlockData | src/blocks/raw/modern/mod.rs:68-74 | the default is dropped exactly when it equals the base, and reading it back gives the id passed in |
| ModernConvert.ConvertClassified | src/blocks/raw/modern/mod.rs:84-89 | a classified property is written as `"bool"`, as the range of its first and last raw values, or as its new or original name |
| ModernConvert.ConvertKind | src/blocks/raw/modern/mod.rs:84-89 | the key is the original name; an Int becomes the range from its start to its end minus one, wrapping, and only an Int becomes a range; a Bool becomes `"bool"`; an Enum becomes its new name, or its original one |
| ModernConvert.ConvertBlock | src/blocks/raw/modern/mod.rs:81-94 | ids unchanged; one written entry per kind, in order, each the conversion of that kind |
| ModernConvert.EnumsOf | src/blocks/raw/modern/mod.rs:23-29 | exactly the enumerations reach the property list; the order is stated by `ModernConvert.EnumsOfAppend` |
| ModernConvert.EnumsOfSingle | src/blocks/raw/modern/mod.rs:23-29 | one property reaches the list exactly when it is an enumeration |
| ModernConvert.EnumsOfAppend | src/blocks/raw/modern/mod.rs:23-29 | the enumerations keep their order |
| ModernConvert.ConvertList | src/blocks/raw/modern/mod.rs:20-33 | the property list is the enumerations in order (`ModernConvert.EnumsOf`), and every block is converted under its identifier, in order |
| ModernConvert.NoEnumsNoProperties | src/blocks/raw/modern/mod.rs:23-29 | a list without enumerations converts to an empty property list |

## Left out

- The command line, file input and output, JSON (de)serialisation and every
  `Display`/`display` or `eprintln!` report. These are I/O. Inputs are given as
  already-parsed values, and reports are returned as values (`Compare.Findings`).
- The intermediary command's decision to stop on collisions (`should_exit`). It is
  called from `src/cmd/intermediary.rs` but is not defined in `collisions.rs`, so it
  is not part of this model.
- The metadata (`MetaData`) the compactor passes through untouched, because it plays
  no part in verification or compaction.
- The rule file format and its loading (`src/blocks/intermediary/rules.rs`). The
  rules are given as a map from value list to name.
- `BlockComparison`: no such comparator exists in the code, so only the property
  comparator is modelled.
- Compact.VerifyBlock: `i32` ids and `usize` offsets are unbounded integers, and
  overflow in `base_id + offset as i32` is not modelled. Real block reports are far
  from the limits.
- Compact.CompactFrom: the identifiers already written are not promised to stay in
  front, because an input block that repeats one moves it to the back, as hashlink's
  `insert` does. `Compact.CompactFromPrefix` states the order for the identifiers the
  input does not repeat.
- ModernBlocks.ReadFrom: likewise, only the identifiers the input does not repeat keep
  their place at the front (`ModernBlocks.ReadFromPrefix`).
- ModernProperty.Classify: `second + 1` on `u8` is modelled with release-build
  wrapping. A debug build panics instead when the last value is 255.
- The JSON layer's treatment of duplicate keys inside one object is not modelled. A
  map's keys are taken as given.

=== FILE: collisions.dfy ===
/** The collision detector: indexes every enumeration property by name and by
    value list, then keeps only names that carry two or more distinct value
    lists and value lists that carry two or more distinct names. */
module Collisions {
  import opened Wrappers
  import opened Property
  import opened RawBlock
  import opened Rules
  import opened Identifier

  /** `by_name`: name to the value lists seen under it; `by_values`: value
      list to the names seen for it. */
  datatype CollisionList = CollisionList(byName: map<string, set<seq<string>>>, byValues: map<seq<string>, set<string>>)

  const NoCollisions := CollisionList(map[], map[])

  /** `is_empty`: neither index holds anything. */
  predicate IsEmpty(c: CollisionList) {
    |c.byName| == 0 && |c.byValues| == 0
  }

  /** This pass reads properties straight into kinds, so one property that
      fails to classify fails the whole pass. */
  function ClassifyAll(props: seq<(string, seq<string>)>): (r: Result<seq<(string, PropertyKind)>, KindError>)
    ensures r.Ok? <==> forall i :: 0 <= i < |props| ==> Classify(props[i].1).Ok?
    ensures r.Ok? ==> r.value == Properties(props)
  {
    if |props| == 0 then Ok([])
    else
      var k :- Classify(props[0].1);
      var rest :- ClassifyAll(props[1..]);
      assert forall i :: 1 <= i < |props| ==> props[i] == props[1..][i - 1];
      Ok([(props[0].0, k)] + rest)
  }

  /** `transform` followed by the enumeration filter: each enumeration,
      under the rule name its exact value list has, or else its own name.
      There is no `"type"` normalisation in this pass. */
  function EnumPairs(rules: Option<RuleTable>, kinds: seq<(string, PropertyKind)>): (r: seq<(string, seq<string>)>)
    ensures forall p :: p in r ==>
      (exists i :: 0 <= i < |kinds| && kinds[i].1 == Enum(p.1) && p.0 == RuleName(rules, kinds[i].0, kinds[i].1))
    ensures forall i :: 0 <= i < |kinds| && kinds[i].1.Enum? ==>
      (RuleName(rules, kinds[i].0, kinds[i].1), kinds[i].1.values) in r
    decreases |kinds|
  {
    if |kinds| == 0 then []
    else
      var rest := EnumPairs(rules, kinds[1..]);
      assert forall i :: 1 <= i < |kinds| ==> kinds[i] == kinds[1..][i - 1];
      if kinds[0].1.Enum? then [(RuleName(rules, kinds[0].0, kinds[0].1), kinds[0].1.values)] + rest else rest
  }

  /** Index one enumeration under its name and under its value list. */
  function Index(c: CollisionList, name: string, values: seq<string>): (r: CollisionList)
    ensures Get(r.byName, name) == Get(c.byName, name) + {values}
    ensures Get(r.byValues, values) == Get(c.byValues, values) + {name}
    ensures forall n :: n != name ==> Get(r.byName, n) == Get(c.byName, n)
    ensures forall v :: v != values ==> Get(r.byValues, v) == Get(c.byValues, v)
  {
    CollisionList(
      c.byName[name := Get(c.byName, name) + {values}],
      c.byValues[values := Get(c.byValues, values) + {name}])
  }

  /** The set under a key, empty when the key is absent. */
  function Get<K, T>(m: map<K, set<T>>, k: K): set<T> {
    if k in m then m[k] else {}
  }

  function Scan(c: CollisionList, pairs: seq<(string, seq<string>)>): (r: CollisionList)
    ensures forall n :: Get(c.byName, n) <= Get(r.byName, n)
    ensures forall v :: Get(c.byValues, v) <= Get(r.byValues, v)
    decreases |pairs|
  {
    if |pairs| == 0 then c else Scan(Index(c, pairs[0].0, pairs[0].1), pairs[1..])
  }

  /** `retain(|_, set| set.len() > 1)` on both indexes. */
  function Retain(c: CollisionList): (r: CollisionList)
    ensures forall n :: n in r.byName <==> n in c.byName && |c.byName[n]| > 1
    ensures forall n :: n in r.byName ==> r.byName[n] == c.byName[n]
    ensures forall v :: v in r.byValues <==> v in c.byValues && |c.byValues[v]| > 1
    ensures forall v :: v in r.byValues ==> r.byValues[v] == c.byValues[v]
  {
    CollisionList(
      map n | n in c.byName && |c.byName[n]| > 1 :: c.byName[n],
      map v | v in c.byValues && |c.byValues[v]| > 1 :: c.byValues[v])
  }

  /** The loop over blocks; identifiers and states are read past. */
  function DetectFrom(rules: Option<RuleTable>, blocks: seq<(Identifier, RawBlock)>, c: CollisionList)
    : (r: Result<CollisionList, KindError>)
    ensures r.Ok? ==> forall n :: n in r.value.byName ==> |r.value.byName[n]| > 1
    ensures r.Ok? ==> forall v :: v in r.value.byValues ==> |r.value.byValues[v]| > 1
    decreases |blocks|
  {
    if |blocks| == 0 then Ok(Retain(c))
    else
      var kinds :- ClassifyAll(blocks[0].1.properties);
      DetectFrom(rules, blocks[1..], Scan(c, EnumPairs(rules, kinds)))
  }

  function Detect(rules: Option<RuleTable>, blocks: seq<(Identifier, RawBlock)>): (r: Result<CollisionList, KindError>)
    ensures r.Ok? ==> forall n :: n in r.value.byName ==> |r.value.byName[n]| > 1
    ensures r.Ok? ==> forall v :: v in r.value.byValues ==> |r.value.byValues[v]| > 1
  {
    DetectFrom(rules, blocks, NoCollisions)
  }

  // ---------------------------------------------------------------------
  // The reference: collisions as properties of the set of enumerations seen

  /** Every (name, value list) pair the pass indexes, block after block. */
  function AllPairs(rules: Option<RuleTable>, blocks: seq<(Identifier, RawBlock)>): seq<(string, seq<string>)> {
    if |blocks| == 0 then [] else EnumPairs(rules, Properties(blocks[0].1.properties)) + AllPairs(rules, blocks[1..])
  }

  /** The distinct value lists seen under `name`. */
  function ValuesOf(pairs: seq<(string, seq<string>)>, name: string): set<seq<string>> {
    set p | p in pairs && p.0 == name :: p.1
  }

  /** The distinct names seen for `values`. */
  function NamesOf(pairs: seq<(string, seq<string>)>, values: seq<string>): set<string> {
    set p | p in pairs && p.1 == values :: p.0
  }

  lemma {:induction false} ValuesOfCons(pairs: seq<(string, seq<string>)>, n: string)
    requires |pairs| > 0
    ensures ValuesOf(pairs, n) == (if pairs[0].0 == n then {pairs[0].1} else {}) + ValuesOf(pairs[1..], n)
  {
    assert forall p :: p in pairs <==> p == pairs[0] || p in pairs[1..];
  }

  lemma {:induction false} NamesOfCons(pairs: seq<(string, seq<string>)>, v: seq<string>)
    requires |pairs| > 0
    ensures NamesOf(pairs, v) == (if pairs[0].1 == v then {pairs[0].0} else {}) + NamesOf(pairs[1..], v)
  {
    assert forall p :: p in pairs <==> p == pairs[0] || p in pairs[1..];
  }

  lemma {:induction false} ScanByName(c: CollisionList, pairs: seq<(string, seq<string>)>, n: string)
    ensures Get(Scan(c, pairs).byName, n) == Get(c.byName, n) + ValuesOf(pairs, n)
    decreases |pairs|
  {
    if |pairs| > 0 {
      ScanByName(Index(c, pairs[0].0, pairs[0].1), pairs[1..], n);
      ValuesOfCons(pairs, n);
    }
  }

  lemma {:induction false} ScanByValues(c: CollisionList, pairs: seq<(string, seq<string>)>, v: seq<string>)
    ensures Get(Scan(c, pairs).byValues, v) == Get(c.byValues, v) + NamesOf(pairs, v)
    decreases |pairs|
  {
    if |pairs| > 0 {
      ScanByValues(Index(c, pairs[0].0, pairs[0].1), pairs[1..], v);
      NamesOfCons(pairs, v);
    }
  }

  lemma {:induction false} DetectFromScan(rules: Option<RuleTable>, blocks: seq<(Identifier, RawBlock)>, c: CollisionList)
    requires DetectFrom(rules, blocks, c).Ok?
    ensures DetectFrom(rules, blocks, c).value == Retain(Scan(c, AllPairs(rules, blocks)))
    decreases |blocks|
  {
    if |blocks| > 0 {
      var pairs := EnumPairs(rules, Properties(blocks[0].1.properties));
      DetectFromScan(rules, blocks[1..], Scan(c, pairs));
      ScanAppend(c, pairs, AllPairs(rules, blocks[1..]));
    }
  }

  lemma {:induction false} ScanAppend(c: CollisionList, a: seq<(string, seq<string>)>, b: seq<(string, seq<string>)>)
    ensures Scan(Scan(c, a), b) == Scan(c, a + b)
    decreases |a|
  {
    if |a| > 0 {
      assert (a + b)[1..] == a[1..] + b;
      ScanAppend(Index(c, a[0].0, a[0].1), a[1..], b);
    } else {
      assert a + b == b;
    }
  }

  /** After the scan, the name index keeps exactly the names seen with two or
      more distinct value lists, each with all of them. */
  lemma DetectByName(rules: Option<RuleTable>, blocks: seq<(Identifier, RawBlock)>, n: string)
    requires Detect(rules, blocks).Ok?
    ensures var c := Detect(rules, blocks).value; var pairs := AllPairs(rules, blocks);
      && (n in c.byName <==> |ValuesOf(pairs, n)| > 1)
      && (n in c.byName ==> c.byName[n] == ValuesOf(pairs, n))
  {
    DetectFromScan(rules, blocks, NoCollisions);
    ScanByName(NoCollisions, AllPairs(rules, blocks), n);
  }

  /** Likewise the value index keeps exactly the value lists seen under two or
      more distinct names. */
  lemma DetectByValues(rules: Option<RuleTable>, blocks: seq<(Identifier, RawBlock)>, v: seq<string>)
    requires Detect(rules, blocks).Ok?
    ensures var c := Detect(rules, blocks).value; var pairs := AllPairs(rules, blocks);
      && (v in c.byValues <==> |NamesOf(pairs, v)| > 1)
      && (v in c.byValues ==> c.byValues[v] == NamesOf(pairs, v))
  {
    DetectFromScan(rules, blocks, NoCollisions);
    ScanByValues(NoCollisions, AllPairs(rules, blocks), v);
  }

  /** Some declared property of the block fails to classify. */
  predicate BlockFails(b: RawBlock) {
    exists j :: 0 <= j < |b.properties| && Classify(b.properties[j].1).Err?
  }

  /** The pass fails exactly when some property of some block fails to
      classify. */
  lemma {:induction false} DetectFails(rules: Option<RuleTable>, blocks: seq<(Identifier, RawBlock)>, c: CollisionList)
    ensures DetectFrom(rules, blocks, c).Err? <==> exists i :: 0 <= i < |blocks| && BlockFails(blocks[i].1)
    decreases |blocks|
  {
    if |blocks| > 0 {
      var props := blocks[0].1.properties;
      if ClassifyAll(props).Ok? {
        var c' := Scan(c, EnumPairs(rules, ClassifyAll(props).value));
        assert DetectFrom(rules, blocks, c) == DetectFrom(rules, blocks[1..], c');
        DetectFails(rules, blocks[1..], c');
        assert !BlockFails(blocks[0].1);
        FailsCons(blocks);
      } else {
        var j :| 0 <= j < |props| && Classify(props[j].1).Err?;
        assert BlockFails(blocks[0].1);
      }
    }
  }

  lemma FailsCons(blocks: seq<(Identifier, RawBlock)>)
    requires |blocks| > 0 && !BlockFails(blocks[0].1)
    ensures (exists i :: 0 <= i < |blocks| && BlockFails(blocks[i].1)) <==>
      (exists i :: 0 <= i < |blocks[1..]| && BlockFails(blocks[1..][i].1))
  {
    if exists i :: 0 <= i < |blocks| && BlockFails(blocks[i].1) {
      var i :| 0 <= i < |blocks| && BlockFails(blocks[i].1);
      assert blocks[1..][i - 1] == blocks[i];
    }
    if exists i :: 0 <= i < |blocks[1..]| && BlockFails(blocks[1..][i].1) {
      var i :| 0 <= i < |blocks[1..]| && BlockFails(blocks[1..][i].1);
      assert blocks[i + 1] == blocks[1..][i];
    }
  }

  lemma TwoElements<T>(s: set<T>)
    ensures |s| > 1 <==> exists a, b :: a in s && b in s && a != b
  {
    if |s| > 1 {
      var a :| a in s;
      assert |s - {a}| > 0;
      var b :| b in s - {a};
    }
    if exists a, b :: a in s && b in s && a != b {
      var a, b :| a in s && b in s && a != b;
      assert {a, b} <= s;
      assert |{a, b}| == 2;
      CardinalitySubset({a, b}, s);
    }
  }

  lemma CardinalitySubset<T>(a: set<T>, b: set<T>)
    requires a <= b
    ensures |a| <= |b|
  {
    assert b == a + (b - a);
  }

  /** `is_empty` holds exactly when no name is seen with two different value
      lists and no value list is seen under two different names. */
  lemma EmptyIff(rules: Option<RuleTable>, blocks: seq<(Identifier, RawBlock)>)
    requires Detect(rules, blocks).Ok?
    ensures var pairs := AllPairs(rules, blocks);
      IsEmpty(Detect(rules, blocks).value) <==>
        && (forall p, q :: p in pairs && q in pairs && p.0 == q.0 ==> p.1 == q.1)
        && (forall p, q :: p in pairs && q in pairs && p.1 == q.1 ==> p.0 == q.0)
  {
    var pairs := AllPairs(rules, blocks);
    var c := Detect(rules, blocks).value;
    if IsEmpty(c) {
      forall p, q | p in pairs && q in pairs && p.0 == q.0
        ensures p.1 == q.1
      {
        DetectByName(rules, blocks, p.0);
        TwoElements(ValuesOf(pairs, p.0));
        assert p.1 in ValuesOf(pairs, p.0) && q.1 in ValuesOf(pairs, p.0);
      }
      forall p, q | p in pairs && q in pairs && p.1 == q.1
        ensures p.0 == q.0
      {
        DetectByValues(rules, blocks, p.1);
        TwoElements(NamesOf(pairs, p.1));
        assert p.0 in NamesOf(pairs, p.1) && q.0 in NamesOf(pairs, p.1);
      }
    } else if |c.byName| > 0 {
      var n :| n in c.byName;
      DetectByName(rules, blocks, n);
      TwoElements(ValuesOf(pairs, n));
      var a, b :| a in ValuesOf(pairs, n) && b in ValuesOf(pairs, n) && a != b;
      assert (n, a) in pairs && (n, b) in pairs;
    } else {
      var v :| v in c.byValues;
      DetectByValues(rules, blocks, v);
      TwoElements(NamesOf(pairs, v));
      var a, b :| a in NamesOf(pairs, v) && b in NamesOf(pairs, v) && a != b;
      assert (a, v) in pairs && (b, v) in pairs;
    }
  }

  /** A name seen with two different value lists is a name collision, even
      when the lists differ only in order. */
  lemma NameCollision(rules: Option<RuleTable>, blocks: seq<(Identifier, RawBlock)>, name: string, a: seq<string>, b: seq<string>)
    requires Detect(rules, blocks).Ok?
    requires (name, a) in AllPairs(rules, blocks) && (name, b) in AllPairs(rules, blocks) && a != b
    ensures name in Detect(rules, blocks).value.byName
    ensures a in Detect(rules, blocks).value.byName[name] && b in Detect(rules, blocks).value.byName[name]
  {
    DetectByName(rules, blocks, name);
    TwoElements(ValuesOf(AllPairs(rules, blocks), name));
    assert a in ValuesOf(AllPairs(rules, blocks), name) && b in ValuesOf(AllPairs(rules, blocks), name);
  }

  /** One value list seen under two different names is a value collision. */
  lemma ValueCollision(rules: Option<RuleTable>, blocks: seq<(Identifier, RawBlock)>, values: seq<string>, a: string, b: string)
    requires Detect(rules, blocks).Ok?
    requires (a, values) in AllPairs(rules, blocks) && (b, values) in AllPairs(rules, blocks) && a != b
    ensures values in Detect(rules, blocks).value.byValues
    ensures a in Detect(rules, blocks).value.byValues[values] && b in Detect(rules, blocks).value.byValues[values]
  {
    DetectByValues(rules, blocks, values);
    TwoElements(NamesOf(AllPairs(rules, blocks), values));
    assert a in NamesOf(AllPairs(rules, blocks), values) && b in NamesOf(AllPairs(rules, blocks), values);
  }

  /** Only the set of pairs matters: repeating a pair, or meeting the pairs in
      another order, changes nothing. */
  lemma OrderIrrelevant(rules: Option<RuleTable>, blocks: seq<(Identifier, RawBlock)>, blocks': seq<(Identifier, RawBlock)>)
    requires Detect(rules, blocks).Ok? && Detect(rules, blocks').Ok?
    requires forall p :: p in AllPairs(rules, blocks) <==> p in AllPairs(rules, blocks')
    ensures Detect(rules, blocks) == Detect(rules, blocks')
  {
    var c, c' := Detect(rules, blocks).value, Detect(rules, blocks').value;
    forall n ensures (n in c.byName <==> n in c'.byName) && (n in c.byName ==> c.byName[n] == c'.byName[n]) {
      SameByName(rules, blocks, blocks', n);
    }
    forall v ensures (v in c.byValues <==> v in c'.byValues) && (v in c.byValues ==> c.byValues[v] == c'.byValues[v]) {
      SameByValues(rules, blocks, blocks', v);
    }
    MapExtensionality(c.byName, c'.byName);
    MapExtensionality(c.byValues, c'.byValues);
  }

  lemma MapExtensionality<K, V>(m: map<K, V>, m': map<K, V>)
    requires forall k :: (k in m <==> k in m') && (k in m ==> m[k] == m'[k])
    ensures m == m'
  {
  }

  lemma SameByName(rules: Option<RuleTable>, blocks: seq<(Identifier, RawBlock)>, blocks': seq<(Identifier, RawBlock)>, n: string)
    requires Detect(rules, blocks).Ok? && Detect(rules, blocks').Ok?
    requires forall p :: p in AllPairs(rules, blocks) <==> p in AllPairs(rules, blocks')
    ensures var c, c' := Detect(rules, blocks).value, Detect(rules, blocks').value;
      (n in c.byName <==> n in c'.byName) && (n in c.byName ==> c.byName[n] == c'.byName[n])
  {
    DetectByName(rules, blocks, n);
    DetectByName(rules, blocks', n);
    assert ValuesOf(AllPairs(rules, blocks), n) == ValuesOf(AllPairs(rules, blocks'), n);
  }

  lemma SameByValues(rules: Option<RuleTable>, blocks: seq<(Identifier, RawBlock)>, blocks': seq<(Identifier, RawBlock)>, v: seq<string>)
    requires Detect(rules, blocks).Ok? && Detect(rules, blocks').Ok?
    requires forall p :: p in AllPairs(rules, blocks) <==> p in AllPairs(rules, blocks')
    ensures var c, c' := Detect(rules, blocks).value, Detect(rules, blocks').value;
      (v in c.byValues <==> v in c'.byValues) && (v in c.byValues ==> c.byValues[v] == c'.byValues[v])
  {
    DetectByValues(rules, blocks, v);
    DetectByValues(rules, blocks', v);
    assert NamesOf(AllPairs(rules, blocks), v) == NamesOf(AllPairs(rules, blocks'), v);
  }

  /** Block identifiers and states play no part. */
  lemma {:induction false} OnlyPropertiesMatter(rules: Option<RuleTable>, blocks: seq<(Identifier, RawBlock)>,
                                                blocks': seq<(Identifier, RawBlock)>, c: CollisionList)
    requires |blocks| == |blocks'|
    requires forall i :: 0 <= i < |blocks| ==> blocks[i].1.properties == blocks'[i].1.properties
    ensures DetectFrom(rules, blocks, c) == DetectFrom(rules, blocks', c)
    decreases |blocks|
  {
    if |blocks| > 0 {
      var kinds := ClassifyAll(blocks[0].1.properties);
      if kinds.Ok? {
        OnlyPropertiesMatter(rules, blocks[1..], blocks'[1..], Scan(c, EnumPairs(rules, kinds.value)));
      }
    }
  }
}

=== FILE: compact.dfy ===
/** The live verifier and compactor: for each block, checks the state count,
    recomputes every state's id by mixed-radix numbering from the base id,
    extracts the base and default ids, and builds the compact block and the
    global table of enumerations. */
module Compact {
  import opened Wrappers
  import opened OrderedMap
  import opened Property
  import opened RawBlock
  import opened MixedRadix
  import opened Rules
  import opened Identifier

  datatype VerifyError =
    | StateCountMismatch(found: nat, expected: nat)
    | NoStates                  // indexing the first state of an empty list panics
    | PropertyCountMismatch(found: nat, expected: nat)
    | UnknownProperty(name: string)
    | UnknownValue(name: string, value: string)
    | IdMismatch(declaredId: int, computedId: int)

  // ---------------------------------------------------------------------
  // State ids

  /** The digits of a state: for each of its properties, in the state's own
      order, the position of the chosen value in the declared value list and
      that list's length. Properties are looked up from the last one back,
      so the error reported is the one nearest the end. */
  function StateDigits(declared: seq<(string, seq<string>)>, assignment: seq<(string, string)>)
    : (r: Result<seq<Digit>, VerifyError>)
    ensures r.Ok? ==> |r.value| == |assignment| && Valid(r.value)
    ensures r.Ok? ==> forall i :: 0 <= i < |assignment| ==>
      && Lookup(declared, assignment[i].0).Some?
      && r.value[i].size == |Lookup(declared, assignment[i].0).value|
      && Lookup(declared, assignment[i].0).value[r.value[i].index] == assignment[i].1
    ensures r.Ok? <==> forall i :: 0 <= i < |assignment| ==>
      Lookup(declared, assignment[i].0).Some? && assignment[i].1 in Lookup(declared, assignment[i].0).value
    decreases |assignment|
  {
    if |assignment| == 0 then Ok([])
    else
      var init := assignment[..|assignment| - 1];
      var (name, value) := assignment[|assignment| - 1];
      assert forall i :: 0 <= i < |init| ==> init[i] == assignment[i];
      match Lookup(declared, name)
      case None => Err(UnknownProperty(name))
      case Some(values) =>
        match IndexOf(values, value)
        case None => Err(UnknownValue(name, value))
        case Some(index) =>
          var ds :- StateDigits(declared, init);
          Ok(ds + [Digit(index, |values|)])
  }

  /** The verifier's inner loop as written: walks the state's properties in
      reverse, failing on an undeclared name or value, with
      `factor *= prev_factor; prev_factor = len; offset += factor * index`. */
  function OffsetLoop(declared: seq<(string, seq<string>)>, assignment: seq<(string, string)>,
                      factor: int, prevFactor: int, offset: int): (r: Result<int, VerifyError>)
    ensures r.Err? ==> r.error.UnknownProperty? || r.error.UnknownValue?
    decreases |assignment|
  {
    if |assignment| == 0 then Ok(offset)
    else
      var (name, value) := assignment[|assignment| - 1];
      match Lookup(declared, name)
      case None => Err(UnknownProperty(name))
      case Some(values) =>
        match IndexOf(values, value)
        case None => Err(UnknownValue(name, value))
        case Some(index) =>
          var f := factor * prevFactor;
          OffsetLoop(declared, assignment[..|assignment| - 1], f, |values|, offset + f * index)
  }

  /** The loop fails exactly as the digit extraction does, and otherwise
      computes the scan over the digits. */
  lemma {:induction false} OffsetLoopScan(declared: seq<(string, seq<string>)>, assignment: seq<(string, string)>,
                                          factor: int, prevFactor: int, offset: int)
    ensures OffsetLoop(declared, assignment, factor, prevFactor, offset) ==
      match StateDigits(declared, assignment)
      case Ok(ds) => Ok(Scan(ds, factor, prevFactor, offset))
      case Err(e) => Err(e)
    decreases |assignment|
  {
    if |assignment| > 0 {
      var init := assignment[..|assignment| - 1];
      var (name, value) := assignment[|assignment| - 1];
      if Lookup(declared, name).Some? && IndexOf(Lookup(declared, name).value, value).Some? {
        var values := Lookup(declared, name).value;
        var index := IndexOf(values, value).value;
        var f := factor * prevFactor;
        OffsetLoopScan(declared, init, f, |values|, offset + f * index);
        if StateDigits(declared, init).Ok? {
          var ds := StateDigits(declared, init).value;
          assert (ds + [Digit(index, |values|)])[..|ds|] == ds;
        }
      }
    }
  }

  /** Started from `factor = prev_factor = 1` and `offset = 0`, the loop
      yields the mixed-radix value of the state's digits. */
  lemma StateOffset(declared: seq<(string, seq<string>)>, assignment: seq<(string, string)>)
    ensures OffsetLoop(declared, assignment, 1, 1, 0) ==
      match StateDigits(declared, assignment)
      case Ok(ds) => Ok(Value(ds))
      case Err(e) => Err(e)
  {
    OffsetLoopScan(declared, assignment, 1, 1, 0);
    if StateDigits(declared, assignment).Ok? {
      ScanFromStart(StateDigits(declared, assignment).value);
    }
  }

  /** A state is consistent with its block when it names as many properties
      as the block declares, every name and value is declared, and its id is
      the base id plus the mixed-radix value of its digits. */
  predicate StateConsistent(declared: seq<(string, seq<string>)>, base: int, s: RawState) {
    && |s.properties| == |declared|
    && StateDigits(declared, s.properties).Ok?
    && s.id == base + Value(StateDigits(declared, s.properties).value)
  }

  /** The id of the last state flagged default, if any. */
  function LastDefault(states: seq<RawState>): (r: Option<int>)
    ensures r.Some? ==> exists i ::
      && 0 <= i < |states| && states[i].isDefault && states[i].id == r.value
      && forall j :: i < j < |states| ==> !states[j].isDefault
    ensures r.None? <==> forall i :: 0 <= i < |states| ==> !states[i].isDefault
  {
    if |states| == 0 then None
    else
      var rest := LastDefault(states[1..]);
      if rest.Some? then rest
      else if states[0].isDefault then Some(states[0].id)
      else None
  }

  /** The loop over the states, in order: the first inconsistent state
      aborts; `found` remembers the id of the latest default state. */
  function CheckStates(declared: seq<(string, seq<string>)>, base: int, states: seq<RawState>, found: Option<int>)
    : (r: Result<Option<int>, VerifyError>)
    ensures r.Err? ==> !r.error.StateCountMismatch? && !r.error.NoStates?
    decreases |states|
  {
    if |states| == 0 then Ok(found)
    else
      var s := states[0];
      if |s.properties| != |declared| then Err(PropertyCountMismatch(|s.properties|, |declared|))
      else
        var offset :- OffsetLoop(declared, s.properties, 1, 1, 0);
        var id := base + offset;
        if id != s.id then Err(IdMismatch(s.id, id))
        else CheckStates(declared, base, states[1..], if s.isDefault then Some(id) else found)
  }

  /** The state loop succeeds exactly when every state is consistent, and
      then it has found the last default state (or kept what it started with). */
  lemma {:induction false} CheckStatesSpec(declared: seq<(string, seq<string>)>, base: int, states: seq<RawState>, found: Option<int>)
    ensures CheckStates(declared, base, states, found).Ok? <==>
      forall i :: 0 <= i < |states| ==> StateConsistent(declared, base, states[i])
    ensures CheckStates(declared, base, states, found).Ok? ==>
      CheckStates(declared, base, states, found).value ==
        (if LastDefault(states).Some? then LastDefault(states) else found)
    decreases |states|
  {
    if |states| > 0 {
      var s := states[0];
      CheckStatesStep(declared, base, states, found);
      AllConsistentCons(declared, base, states);
      if StateConsistent(declared, base, s) {
        CheckStatesSpec(declared, base, states[1..], if s.isDefault then Some(s.id) else found);
      }
    }
  }

  /** One step of the state loop: a consistent first state passes its id on
      as the candidate default, an inconsistent one stops the loop. */
  lemma CheckStatesStep(declared: seq<(string, seq<string>)>, base: int, states: seq<RawState>, found: Option<int>)
    requires |states| > 0
    ensures StateConsistent(declared, base, states[0]) ==>
      CheckStates(declared, base, states, found) ==
        CheckStates(declared, base, states[1..], if states[0].isDefault then Some(states[0].id) else found)
    ensures !StateConsistent(declared, base, states[0]) ==> CheckStates(declared, base, states, found).Err?
  {
    ConsistentOffset(declared, base, states[0]);
    CheckStatesUnfold(declared, base, states, found);
  }

  lemma CheckStatesUnfold(declared: seq<(string, seq<string>)>, base: int, states: seq<RawState>, found: Option<int>)
    requires |states| > 0
    ensures var s := states[0];
      |s.properties| == |declared| && OffsetLoop(declared, s.properties, 1, 1, 0) == Ok(s.id - base) ==>
      CheckStates(declared, base, states, found) ==
        CheckStates(declared, base, states[1..], if s.isDefault then Some(s.id) else found)
    ensures var s := states[0];
      !(|s.properties| == |declared| && OffsetLoop(declared, s.properties, 1, 1, 0) == Ok(s.id - base)) ==>
      CheckStates(declared, base, states, found).Err?
  {
  }

  /** A state is consistent exactly when the source's loop over its
      assignment yields its id's offset from the base. */
  lemma ConsistentOffset(declared: seq<(string, seq<string>)>, base: int, s: RawState)
    ensures StateConsistent(declared, base, s) <==>
      |s.properties| == |declared| && OffsetLoop(declared, s.properties, 1, 1, 0) == Ok(s.id - base)
  {
    StateOffset(declared, s.properties);
  }

  lemma AllConsistentCons(declared: seq<(string, seq<string>)>, base: int, states: seq<RawState>)
    requires |states| > 0
    ensures (forall i :: 0 <= i < |states| ==> StateConsistent(declared, base, states[i])) <==>
      StateConsistent(declared, base, states[0]) &&
      forall i :: 0 <= i < |states[1..]| ==> StateConsistent(declared, base, states[1..][i])
  {
    assert forall i :: 0 <= i < |states[1..]| ==> states[1..][i] == states[i + 1];
  }

  // ---------------------------------------------------------------------
  // Blocks

  datatype BlockIds = BlockIds(base: int, default: Option<int>)

  /** A default equal to the base id is not recorded. */
  function Collapse(found: Option<int>, base: int): (r: Option<int>)
    ensures r.Some? ==> r == found && r.value != base
    ensures r.None? <==> found.None? || found == Some(base)
  {
    match found
    case Some(id) => if id == base then None else Some(id)
    case None => None
  }

  /** Everything the verifier demands of a block. */
  predicate Consistent(b: RawBlock) {
    && |b.states| == Product(b.properties)
    && |b.states| > 0
    && forall i :: 0 <= i < |b.states| ==> StateConsistent(b.properties, b.states[0].id, b.states[i])
  }

  /** Verification of one block: state count, then every state, then the
      base id (first state's id) and the default id (last flagged state's id
      unless it is the base id). */
  function VerifyBlock(b: RawBlock): (r: Result<BlockIds, VerifyError>)
    ensures r.Ok? <==> Consistent(b)
    ensures r == Err(StateCountMismatch(|b.states|, Product(b.properties))) <==>
      |b.states| != Product(b.properties)
    ensures r == Err(NoStates) <==> |b.states| == 0 && Product(b.properties) == 0
    ensures r.Ok? ==> r.value.base == b.states[0].id
    ensures r.Ok? ==> (r.value.default.None? <==>
      LastDefault(b.states).None? || LastDefault(b.states) == Some(b.states[0].id))
    ensures r.Ok? && r.value.default.Some? ==>
      r.value.default == LastDefault(b.states) && r.value.default.value != b.states[0].id
  {
    if |b.states| != Product(b.properties) then Err(StateCountMismatch(|b.states|, Product(b.properties)))
    else if |b.states| == 0 then Err(NoStates)
    else
      var base := b.states[0].id;
      CheckStatesSpec(b.properties, base, b.states, None);
      var found :- CheckStates(b.properties, base, b.states, None);
      Ok(BlockIds(base, Collapse(found, base)))
  }

  /** The numbering is lossless: two states of a verified block that list
      the same property names in the same order but choose different values
      have different ids. */
  lemma StatesLossless(b: RawBlock, i: nat, j: nat)
    requires VerifyBlock(b).Ok? && i < |b.states| && j < |b.states|
    requires Keys(b.states[i].properties) == Keys(b.states[j].properties)
    requires b.states[i].properties != b.states[j].properties
    ensures b.states[i].id != b.states[j].id
  {
    var a, c := b.states[i].properties, b.states[j].properties;
    assert StateConsistent(b.properties, b.states[0].id, b.states[i]);
    assert StateConsistent(b.properties, b.states[0].id, b.states[j]);
    var da := StateDigits(b.properties, a).value;
    var dc := StateDigits(b.properties, c).value;
    SameNamesSameSizes(b.properties, a, c);
    if b.states[i].id == b.states[j].id {
      ValueInjective(da, dc);
      DigitsDetermine(b.properties, a, c);
    }
  }

  /** Two assignments naming the same properties in the same order get
      digits of the same sizes. */
  lemma SameNamesSameSizes(declared: seq<(string, seq<string>)>, a: seq<(string, string)>, c: seq<(string, string)>)
    requires StateDigits(declared, a).Ok? && StateDigits(declared, c).Ok?
    requires Keys(a) == Keys(c)
    ensures Sizes(StateDigits(declared, a).value) == Sizes(StateDigits(declared, c).value)
  {
    assert forall k :: 0 <= k < |a| ==> a[k].0 == Keys(a)[k] == Keys(c)[k] == c[k].0;
  }

  /** Equal digits under the same names mean the same chosen values. */
  lemma DigitsDetermine(declared: seq<(string, seq<string>)>, a: seq<(string, string)>, c: seq<(string, string)>)
    requires StateDigits(declared, a).Ok? && StateDigits(declared, c).Ok?
    requires Keys(a) == Keys(c)
    requires StateDigits(declared, a).value == StateDigits(declared, c).value
    ensures a == c
  {
    assert forall k :: 0 <= k < |a| ==> a[k].0 == Keys(a)[k] == Keys(c)[k] == c[k].0;
    assert forall k :: 0 <= k < |a| ==> a[k] == c[k];
  }

  /** Every state's id lies between the base id and the base id plus the
      product of the sizes of the properties it names; when it names the
      declared properties in declared order, that product is the block's
      state count. */
  lemma StateIdRange(b: RawBlock, i: nat)
    requires VerifyBlock(b).Ok? && i < |b.states|
    ensures var ds := StateDigits(b.properties, b.states[i].properties).value;
      b.states[0].id <= b.states[i].id < b.states[0].id + Radix(Sizes(ds))
    ensures DistinctKeys(b.properties) && Keys(b.states[i].properties) == Keys(b.properties) ==>
      b.states[0].id <= b.states[i].id < b.states[0].id + Product(b.properties)
  {
    var a := b.states[i].properties;
    var ds := StateDigits(b.properties, a).value;
    ValueBound(ds);
    if DistinctKeys(b.properties) && Keys(a) == Keys(b.properties) {
      forall k | 0 <= k < |ds|
        ensures Sizes(ds)[k] == |b.properties[k].1|
      {
        assert a[k].0 == Keys(a)[k] == b.properties[k].0;
        LookupDistinct(b.properties, k);
      }
      ProductRadix(b.properties, Sizes(ds));
    }
  }

  lemma {:induction false} ProductRadix(props: seq<(string, seq<string>)>, sizes: seq<nat>)
    requires |sizes| == |props|
    requires forall k :: 0 <= k < |sizes| ==> sizes[k] == |props[k].1|
    ensures Radix(sizes) == Product(props)
  {
    if |sizes| > 0 {
      ProductRadix(props[..|props| - 1], sizes[..|sizes| - 1]);
    }
  }

  /** Reading the compact ids back: an absent default means the base id. */
  function ReadDefault(ids: BlockIds): int {
    match ids.default
    case Some(d) => d
    case None => ids.base
  }

  /** Base and default ids survive compaction: the default read back is the
      last flagged state's id, or the base id when no state is flagged. */
  lemma DefaultRoundTrip(b: RawBlock)
    requires VerifyBlock(b).Ok?
    ensures ReadDefault(VerifyBlock(b).value) ==
      match LastDefault(b.states)
      case Some(d) => d
      case None => b.states[0].id
  {
  }

  // ---------------------------------------------------------------------
  // Compaction

  /** The value a compact block records for one property. */
  datatype PropertyValue = BoolValue | RangeValue(start: nat, end: nat) | EnumName(name: string)

  datatype CompactBlock = CompactBlock(properties: seq<(string, PropertyValue)>, base: int, default: Option<int>)

  /** The global enumeration table and the compact blocks, both in input order. */
  datatype CompactList = CompactList(properties: seq<(string, seq<string>)>, blocks: seq<(Identifier, CompactBlock)>)

  /** `transform`: `"type"` becomes `"kind"`, then the rule table, if given,
      may rename an enumeration by its values. Kinds are untouched. */
  function Transform(rules: Option<RuleTable>, props: seq<(string, PropertyKind)>): (r: seq<(string, PropertyKind)>)
    ensures |r| == |props|
    ensures forall i :: 0 <= i < |props| ==> r[i].1 == props[i].1
    ensures forall i :: 0 <= i < |props| ==> r[i].0 != "type" || (rules.Some? && props[i].1.Enum?)
    ensures rules.None? ==> forall i :: 0 <= i < |props| ==>
      r[i].0 == (if props[i].0 == "type" then "kind" else props[i].0)
    ensures forall i :: 0 <= i < |props| && rules.Some? && props[i].1.Enum? && props[i].1.values in rules.value ==>
      r[i].0 == rules.value[props[i].1.values]
    ensures forall i :: 0 <= i < |props| && !(rules.Some? && props[i].1.Enum? && props[i].1.values in rules.value) ==>
      r[i].0 == Normalize(props[i].0)
  {
    seq(|props|, i requires 0 <= i < |props| =>
      (RuleName(rules, Normalize(props[i].0), props[i].1), props[i].1))
  }

  /** Renaming a second time changes nothing: a rule's name is chosen by the
      values alone, and a normalised name normalises to itself. */
  lemma TransformIdempotent(rules: Option<RuleTable>, props: seq<(string, PropertyKind)>)
    ensures Transform(rules, Transform(rules, props)) == Transform(rules, props)
  {
    var t := Transform(rules, props);
    var tt := Transform(rules, t);
    forall i | 0 <= i < |props| ensures tt[i] == t[i] {
      if !(rules.Some? && props[i].1.Enum? && props[i].1.values in rules.value) {
        assert Normalize(Normalize(props[i].0)) == Normalize(props[i].0);
      }
    }
  }

  /** The enumerations among named kinds, as table entries. */
  function Enums(named: seq<(string, PropertyKind)>): (r: seq<(string, seq<string>)>)
    ensures forall e :: e in r <==> (e.0, Enum(e.1)) in named
  {
    if |named| == 0 then []
    else
      (if named[0].1.Enum? then [(named[0].0, named[0].1.values)] else []) + Enums(named[1..])
  }

  /** One property is a table entry exactly when it is an enumeration. */
  lemma EnumsSingle(p: (string, PropertyKind))
    ensures Enums([p]) == if p.1.Enum? then [(p.0, p.1.values)] else []
  {
    assert [p][1..] == [];
  }

  /** Table entries keep the order of the properties they come from. */
  lemma {:induction false} EnumsAppend(a: seq<(string, PropertyKind)>, b: seq<(string, PropertyKind)>)
    ensures Enums(a + b) == Enums(a) + Enums(b)
    decreases |a|
  {
    if |a| == 0 {
      assert a + b == b;
    } else {
      assert (a + b)[0] == a[0];
      assert (a + b)[1..] == a[1..] + b;
      EnumsAppend(a[1..], b);
    }
  }

  /** The compact entry of each property, in order, before they are
      collected into a map: the key is the normalised name; the value is a
      boolean marker, an inclusive range, or the table name the enumeration
      goes under. */
  function CompactEntries(rules: Option<RuleTable>, props: seq<(string, PropertyKind)>)
    : (r: seq<(string, PropertyValue)>)
    ensures |r| == |props|
    ensures forall i :: 0 <= i < |props| ==> r[i].0 == Normalize(props[i].0)
    ensures forall i :: 0 <= i < |props| && props[i].1.Bool? ==> r[i].1 == BoolValue
    ensures forall i :: 0 <= i < |props| && props[i].1.Int? ==>
      r[i].1 == RangeValue(props[i].1.low, props[i].1.high)
    ensures forall i :: 0 <= i < |props| && props[i].1.Enum? ==>
      r[i].1 == EnumName(Transform(rules, props)[i].0)
  {
    seq(|props|, i requires 0 <= i < |props| =>
      var name := Normalize(props[i].0);
      (name,
       match props[i].1
       case Bool => BoolValue
       case Int(low, high) => RangeValue(low, high)
       case Enum(_) => EnumName(RuleName(rules, name, props[i].1))))
  }

  /** `collect` into the block's name-keyed map: the entries are inserted in
      order, so keys are distinct and the only entries are compact entries. */
  function CompactProperties(rules: Option<RuleTable>, props: seq<(string, PropertyKind)>)
    : (r: seq<(string, PropertyValue)>)
    ensures DistinctKeys(r)
    ensures |r| <= |props|
    ensures forall i :: 0 <= i < |props| ==> Normalize(props[i].0) in Keys(r)
  {
    var es := CompactEntries(rules, props);
    ExtendDistinct([], es);
    forall i | 0 <= i < |props| ensures Normalize(props[i].0) in Keys(Extend([], es)) {
      assert Keys(es)[i] == es[i].0;
      ExtendKeeps([], es, es[i].0);
    }
    Extend([], es)
  }

  /** A property declared twice under one compact name keeps the entry of
      its last declaration. */
  lemma CompactPropertiesLastWins(rules: Option<RuleTable>, props: seq<(string, PropertyKind)>, name: string)
    ensures Lookup(CompactProperties(rules, props), name) == LookupLast(CompactEntries(rules, props), name)
  {
    ExtendLastWins([], CompactEntries(rules, props), name);
  }

  /** Every collected entry is one of the compact entries. */
  lemma CompactPropertiesEntries(rules: Option<RuleTable>, props: seq<(string, PropertyKind)>, p: (string, PropertyValue))
    requires p in CompactProperties(rules, props)
    ensures p in CompactEntries(rules, props)
  {
    ExtendEntries([], CompactEntries(rules, props), p);
  }

  /** A block declaring both `"type"` and `"kind"` has one compact `"kind"`
      entry after renaming: the later declaration's. */
  lemma TypeAndKindClash(props: seq<(string, PropertyKind)>)
    requires props == [("type", Bool), ("kind", Enum(["c", "d"]))]
    ensures CompactProperties(None, props) == [("kind", EnumName("kind"))]
  {
    var es := CompactEntries(None, props);
    assert es == [("kind", BoolValue), ("kind", EnumName("kind"))];
    var m1: seq<(string, PropertyValue)> := [("kind", BoolValue)];
    assert Insert([], "kind", BoolValue) == m1;
    assert Insert(m1, "kind", EnumName("kind")) == [("kind", EnumName("kind"))];
    assert es[1..][1..] == [];
    calc {
      Extend([], es);
      Extend(m1, es[1..]);
      Extend([("kind", EnumName("kind"))], es[1..][1..]);
    }
  }

  function CompactOf(rules: Option<RuleTable>, b: RawBlock, ids: BlockIds): CompactBlock {
    CompactBlock(CompactProperties(rules, Properties(b.properties)), ids.base, ids.default)
  }

  /** The enumeration entries one block contributes to the global table. */
  function BlockEnums(rules: Option<RuleTable>, b: RawBlock): seq<(string, seq<string>)> {
    Enums(Transform(rules, Properties(b.properties)))
  }

  /** The loop over blocks in input order: the first block that fails to
      verify aborts everything; otherwise its enumerations extend the table
      and its compact form is inserted under its identifier. */
  function CompactFrom(rules: Option<RuleTable>, blocks: seq<(Identifier, RawBlock)>,
                       table: seq<(string, seq<string>)>, out: seq<(Identifier, CompactBlock)>)
    : (r: Result<CompactList, VerifyError>)
    ensures r.Ok? ==> |r.value.blocks| <= |out| + |blocks|
    decreases |blocks|
  {
    if |blocks| == 0 then Ok(CompactList(table, out))
    else
      var (id, b) := blocks[0];
      var ids :- VerifyBlock(b);
      var out' := Insert(out, id, CompactOf(rules, b, ids));
      CompactFrom(rules, blocks[1..], Extend(table, BlockEnums(rules, b)), out')
  }

  function CompactAll(rules: Option<RuleTable>, blocks: seq<(Identifier, RawBlock)>): (r: Result<CompactList, VerifyError>)
    ensures r.Ok? ==> |r.value.blocks| <= |blocks|
  {
    CompactFrom(rules, blocks, [], [])
  }

  /** The whole list compacts exactly when every block verifies. */
  lemma {:induction false} CompactSucceeds(rules: Option<RuleTable>, blocks: seq<(Identifier, RawBlock)>,
                                           table: seq<(string, seq<string>)>, out: seq<(Identifier, CompactBlock)>)
    ensures CompactFrom(rules, blocks, table, out).Ok? <==> AllVerify(blocks)
    decreases |blocks|
  {
    if |blocks| > 0 {
      var (id, b) := blocks[0];
      AllVerifyCons(blocks);
      if VerifyBlock(b).Ok? {
        CompactStep(rules, blocks, table, out);
        CompactSucceeds(rules, blocks[1..], Extend(table, BlockEnums(rules, b)),
          Insert(out, id, CompactOf(rules, b, VerifyBlock(b).value)));
      }
    }
  }

  /** Every block of the list verifies. */
  predicate AllVerify(blocks: seq<(Identifier, RawBlock)>) {
    forall i :: 0 <= i < |blocks| ==> VerifyBlock(blocks[i].1).Ok?
  }

  lemma AllVerifyCons(blocks: seq<(Identifier, RawBlock)>)
    requires |blocks| > 0
    ensures AllVerify(blocks) <==> VerifyBlock(blocks[0].1).Ok? && AllVerify(blocks[1..])
  {
    assert forall i :: 1 <= i < |blocks| ==> blocks[i] == blocks[1..][i - 1];
  }

  /** A failure is the error of the first block that does not verify. */
  lemma {:induction false} CompactFirstError(rules: Option<RuleTable>, blocks: seq<(Identifier, RawBlock)>,
                                             table: seq<(string, seq<string>)>, out: seq<(Identifier, CompactBlock)>)
    requires CompactFrom(rules, blocks, table, out).Err?
    ensures exists i :: FirstFailure(blocks, i, CompactFrom(rules, blocks, table, out).error)
    decreases |blocks|
  {
    var err := CompactFrom(rules, blocks, table, out).error;
    var (id, b) := blocks[0];
    if VerifyBlock(b).Ok? {
      var table' := Extend(table, BlockEnums(rules, b));
      var out' := Insert(out, id, CompactOf(rules, b, VerifyBlock(b).value));
      CompactStep(rules, blocks, table, out);
      CompactFirstError(rules, blocks[1..], table', out');
      var i :| FirstFailure(blocks[1..], i, err);
      FirstFailureCons(blocks, i, err);
    } else {
      assert FirstFailure(blocks, 0, err);
    }
  }

  /** Block `i` is the first block that fails verification, with `e`. */
  predicate FirstFailure(blocks: seq<(Identifier, RawBlock)>, i: int, e: VerifyError) {
    && 0 <= i < |blocks|
    && VerifyBlock(blocks[i].1) == Err(e)
    && forall j :: 0 <= j < i ==> VerifyBlock(blocks[j].1).Ok?
  }

  lemma FirstFailureCons(blocks: seq<(Identifier, RawBlock)>, i: int, e: VerifyError)
    requires |blocks| > 0 && VerifyBlock(blocks[0].1).Ok?
    requires FirstFailure(blocks[1..], i, e)
    ensures FirstFailure(blocks, i + 1, e)
  {
    assert blocks[i + 1] == blocks[1..][i];
    assert forall j :: 1 <= j < i + 1 ==> blocks[j] == blocks[1..][j - 1];
  }

  /** Compaction loses no block: every identifier already written and every
      input block's identifier is a key of the output. */
  lemma {:induction false} CompactFromKeys(rules: Option<RuleTable>, blocks: seq<(Identifier, RawBlock)>,
                                           table: seq<(string, seq<string>)>, out: seq<(Identifier, CompactBlock)>)
    requires CompactFrom(rules, blocks, table, out).Ok?
    ensures forall k :: k in Keys(out) ==> k in Keys(CompactFrom(rules, blocks, table, out).value.blocks)
    ensures forall i :: 0 <= i < |blocks| ==> blocks[i].0 in Keys(CompactFrom(rules, blocks, table, out).value.blocks)
    decreases |blocks|
  {
    if |blocks| > 0 {
      var (id, b) := blocks[0];
      assert VerifyBlock(b).Ok?;
      var cb := CompactOf(rules, b, VerifyBlock(b).value);
      var table' := Extend(table, BlockEnums(rules, b));
      CompactStep(rules, blocks, table, out);
      CompactFromKeys(rules, blocks[1..], table', Insert(out, id, cb));
      var ks := Keys(CompactFrom(rules, blocks[1..], table', Insert(out, id, cb)).value.blocks);
      InsertCarries(out, id, cb, ks);
      FirstsCons(blocks, ks);
    }
  }

  /** Over a map of written blocks, compaction never shrinks the output. */
  lemma {:induction false} CompactFromLength(rules: Option<RuleTable>, blocks: seq<(Identifier, RawBlock)>,
                                             table: seq<(string, seq<string>)>, out: seq<(Identifier, CompactBlock)>)
    requires CompactFrom(rules, blocks, table, out).Ok? && DistinctKeys(out)
    ensures |out| <= |CompactFrom(rules, blocks, table, out).value.blocks|
    decreases |blocks|
  {
    if |blocks| > 0 {
      var (id, b) := blocks[0];
      assert VerifyBlock(b).Ok?;
      var cb := CompactOf(rules, b, VerifyBlock(b).value);
      CompactStep(rules, blocks, table, out);
      InsertLength(out, id, cb);
      InsertDistinct(out, id, cb);
      CompactFromLength(rules, blocks[1..], Extend(table, BlockEnums(rules, b)), Insert(out, id, cb));
    }
  }

  /** Identifiers already written keep their order at the front of the
      output as long as no input block repeats one of them (`insert` moves
      a repeated identifier to the back). */
  lemma {:induction false} CompactFromPrefix(rules: Option<RuleTable>, blocks: seq<(Identifier, RawBlock)>,
                                             table: seq<(string, seq<string>)>, out: seq<(Identifier, CompactBlock)>,
                                             p: seq<Identifier>)
    requires CompactFrom(rules, blocks, table, out).Ok?
    requires p <= Keys(out)
    requires forall i :: 0 <= i < |blocks| ==> blocks[i].0 !in p
    ensures p <= Keys(CompactFrom(rules, blocks, table, out).value.blocks)
    decreases |blocks|
  {
    if |blocks| > 0 {
      var (id, b) := blocks[0];
      assert VerifyBlock(b).Ok?;
      var cb := CompactOf(rules, b, VerifyBlock(b).value);
      CompactStep(rules, blocks, table, out);
      InsertPrefix(out, id, cb, p);
      FirstsTail(blocks, p);
      CompactFromPrefix(rules, blocks[1..], Extend(table, BlockEnums(rules, b)), Insert(out, id, cb), p);
    }
  }

  /** One turn of the block loop on a block that verifies. */
  lemma CompactStep(rules: Option<RuleTable>, blocks: seq<(Identifier, RawBlock)>,
                    table: seq<(string, seq<string>)>, out: seq<(Identifier, CompactBlock)>)
    requires |blocks| > 0 && VerifyBlock(blocks[0].1).Ok?
    ensures CompactFrom(rules, blocks, table, out) ==
      CompactFrom(rules, blocks[1..], Extend(table, BlockEnums(rules, blocks[0].1)),
        Insert(out, blocks[0].0, CompactOf(rules, blocks[0].1, VerifyBlock(blocks[0].1).value)))
  {
  }

  /** What every compact block promises of the table next to it: an
      enumeration value names a table key, and no key is `"type"`. */
  predicate WellFormed(out: seq<(Identifier, CompactBlock)>, table: seq<(string, seq<string>)>) {
    forall e :: e in out ==> BlockWellFormed(e.1, Keys(table))
  }

  predicate BlockWellFormed(cb: CompactBlock, keys: seq<string>) {
    && DistinctKeys(cb.properties)
    && forall p :: p in cb.properties ==> p.0 != "type" && (p.1.EnumName? ==> p.1.name in keys)
  }

  /** Within one block, every enumeration reference is a key the same block
      contributes to the table: both sides rename the same way. */
  lemma BlockReferences(rules: Option<RuleTable>, props: seq<(string, PropertyKind)>, p: (string, PropertyValue))
    requires p in CompactProperties(rules, props)
    ensures p.0 != "type"
    ensures p.1.EnumName? ==> p.1.name in Keys(Enums(Transform(rules, props)))
  {
    CompactPropertiesEntries(rules, props, p);
    var r := CompactEntries(rules, props);
    var i :| 0 <= i < |r| && r[i] == p;
    if p.1.EnumName? {
      var t := Transform(rules, props);
      assert t[i] == (p.1.name, props[i].1);
      assert (p.1.name, props[i].1.values) in Enums(t);
      EntryKey(Enums(t), (p.1.name, props[i].1.values));
    }
  }

  lemma {:induction false} CompactWellFormed(rules: Option<RuleTable>, blocks: seq<(Identifier, RawBlock)>,
                                             table: seq<(string, seq<string>)>, out: seq<(Identifier, CompactBlock)>)
    requires CompactFrom(rules, blocks, table, out).Ok?
    requires WellFormed(out, table) && DistinctKeys(table) && DistinctKeys(out)
    ensures var list := CompactFrom(rules, blocks, table, out).value;
      WellFormed(list.blocks, list.properties) && DistinctKeys(list.properties) && DistinctKeys(list.blocks)
    decreases |blocks|
  {
    if |blocks| > 0 {
      var (id, b) := blocks[0];
      var ids := VerifyBlock(b).value;
      var cb := CompactOf(rules, b, ids);
      var table' := Extend(table, BlockEnums(rules, b));
      var out' := Insert(out, id, cb);
      CompactStep(rules, blocks, table, out);
      ExtendDistinct(table, BlockEnums(rules, b));
      InsertDistinct(out, id, cb);
      WellFormedStep(rules, b, ids, table, out, id);
      CompactWellFormed(rules, blocks[1..], table', out');
    }
  }

  lemma WellFormedStep(rules: Option<RuleTable>, b: RawBlock, ids: BlockIds,
                       table: seq<(string, seq<string>)>, out: seq<(Identifier, CompactBlock)>, id: Identifier)
    requires WellFormed(out, table)
    ensures WellFormed(Insert(out, id, CompactOf(rules, b, ids)), Extend(table, BlockEnums(rules, b)))
  {
    var cb := CompactOf(rules, b, ids);
    var keys := Keys(table);
    var keys' := Keys(Extend(table, BlockEnums(rules, b)));
    forall k | k in keys || k in Keys(BlockEnums(rules, b))
      ensures k in keys'
    {
      ExtendKeeps(table, BlockEnums(rules, b), k);
    }
    forall e | e in Insert(out, id, cb)
      ensures BlockWellFormed(e.1, keys')
    {
      InsertEntries(out, id, cb, e);
      if e == (id, cb) {
        forall p | p in cb.properties
          ensures p.0 != "type" && (p.1.EnumName? ==> p.1.name in keys')
        {
          BlockReferences(rules, Properties(b.properties), p);
        }
      } else {
        assert BlockWellFormed(e.1, keys);
      }
    }
  }

  /** The compacted list is self-contained: every enumeration a compact
      block refers to is in the global table, no property is called
      `"type"`, and both maps have distinct keys. */
  lemma ReferencesResolve(rules: Option<RuleTable>, blocks: seq<(Identifier, RawBlock)>)
    requires CompactAll(rules, blocks).Ok?
    ensures var list := CompactAll(rules, blocks).value;
      && DistinctKeys(list.properties) && DistinctKeys(list.blocks)
      && forall e, p :: e in list.blocks && p in e.1.properties ==>
           p.0 != "type" && (p.1.EnumName? ==> p.1.name in Keys(list.properties))
  {
    CompactWellFormed(rules, blocks, [], []);
    var list := CompactAll(rules, blocks).value;
    forall e, p | e in list.blocks && p in e.1.properties
      ensures p.0 != "type" && (p.1.EnumName? ==> p.1.name in Keys(list.properties))
    {
      assert BlockWellFormed(e.1, Keys(list.properties));
    }
  }

  /** All table entries the blocks contribute, in order. */
  function AllEnums(rules: Option<RuleTable>, blocks: seq<(Identifier, RawBlock)>): seq<(string, seq<string>)> {
    if |blocks| == 0 then [] else BlockEnums(rules, blocks[0].1) + AllEnums(rules, blocks[1..])
  }

  lemma {:induction false} CompactTable(rules: Option<RuleTable>, blocks: seq<(Identifier, RawBlock)>,
                                        table: seq<(string, seq<string>)>, out: seq<(Identifier, CompactBlock)>)
    requires CompactFrom(rules, blocks, table, out).Ok?
    ensures CompactFrom(rules, blocks, table, out).value.properties == Extend(table, AllEnums(rules, blocks))
    decreases |blocks|
  {
    if |blocks| > 0 {
      var (id, b) := blocks[0];
      var ids := VerifyBlock(b).value;
      CompactStep(rules, blocks, table, out);
      CompactTable(rules, blocks[1..], Extend(table, BlockEnums(rules, b)), Insert(out, id, CompactOf(rules, b, ids)));
      ExtendConcat(table, BlockEnums(rules, b), AllEnums(rules, blocks[1..]));
    }
  }

  /** A later block that reuses an enumeration name overwrites its values:
      the table holds, for each name, the values of its last occurrence. */
  lemma TableLastWins(rules: Option<RuleTable>, blocks: seq<(Identifier, RawBlock)>, name: string)
    requires CompactAll(rules, blocks).Ok?
    ensures Lookup(CompactAll(rules, blocks).value.properties, name) == LookupLast(AllEnums(rules, blocks), name)
  {
    CompactTable(rules, blocks, [], []);
    ExtendLastWins([], AllEnums(rules, blocks), name);
  }

  /** The compact blocks expected from blocks that all verify. */
  function ExpectedBlocks(rules: Option<RuleTable>, blocks: seq<(Identifier, RawBlock)>): seq<(Identifier, CompactBlock)>
    requires forall i :: 0 <= i < |blocks| ==> VerifyBlock(blocks[i].1).Ok?
  {
    if |blocks| == 0 then []
    else [(blocks[0].0, CompactOf(rules, blocks[0].1, VerifyBlock(blocks[0].1).value))] + ExpectedBlocks(rules, blocks[1..])
  }

  lemma {:induction false} CompactBlocksFrom(rules: Option<RuleTable>, blocks: seq<(Identifier, RawBlock)>,
                                             table: seq<(string, seq<string>)>, out: seq<(Identifier, CompactBlock)>)
    requires forall i :: 0 <= i < |blocks| ==> VerifyBlock(blocks[i].1).Ok?
    requires DistinctKeys(blocks)
    requires forall k :: k in Keys(blocks) ==> k !in Keys(out)
    ensures CompactFrom(rules, blocks, table, out).Ok?
    ensures CompactFrom(rules, blocks, table, out).value.blocks == out + ExpectedBlocks(rules, blocks)
    decreases |blocks|
  {
    if |blocks| == 0 {
      assert out + [] == out;
    } else {
      var id, b := blocks[0].0, blocks[0].1;
      var cb := CompactOf(rules, b, VerifyBlock(b).value);
      var rest := blocks[1..];
      VerifyRest(blocks);
      FreshRest(blocks, out, cb);
      var out' := out + [(id, cb)];
      CompactStep(rules, blocks, table, out);
      CompactBlocksFrom(rules, rest, Extend(table, BlockEnums(rules, b)), out');
      AppendAssoc(out, [(id, cb)], ExpectedBlocks(rules, rest));
    }
  }

  /** Every block after the first verifies when every block does. */
  lemma VerifyRest(blocks: seq<(Identifier, RawBlock)>)
    requires |blocks| > 0
    requires forall i :: 0 <= i < |blocks| ==> VerifyBlock(blocks[i].1).Ok?
    ensures forall i :: 0 <= i < |blocks[1..]| ==> VerifyBlock(blocks[1..][i].1).Ok?
  {
    assert forall i :: 0 <= i < |blocks[1..]| ==> blocks[1..][i] == blocks[i + 1];
  }

  /** Appending the first block's compact form keeps the remaining
      identifiers distinct and fresh. */
  lemma FreshRest(blocks: seq<(Identifier, RawBlock)>, out: seq<(Identifier, CompactBlock)>, cb: CompactBlock)
    requires |blocks| > 0
    requires DistinctKeys(blocks)
    requires forall k :: k in Keys(blocks) ==> k !in Keys(out)
    ensures Insert(out, blocks[0].0, cb) == out + [(blocks[0].0, cb)]
    ensures DistinctKeys(blocks[1..])
    ensures forall k :: k in Keys(blocks[1..]) ==> k !in Keys(out + [(blocks[0].0, cb)])
  {
    var id, rest := blocks[0].0, blocks[1..];
    KeysCons(blocks);
    InsertNew(out, id, cb);
    KeysAppend(out, (id, cb));
    assert id !in Keys(rest);
    assert forall k :: k in Keys(rest) ==> k in Keys(blocks) && k != id;
  }

  lemma AppendAssoc<T>(a: seq<T>, b: seq<T>, c: seq<T>)
    ensures (a + b) + c == a + (b + c)
  {
  }

  /** With distinct identifiers, the output has one compact block per input
      block, in input order, carrying its verified base and default ids. */
  lemma CompactBlocks(rules: Option<RuleTable>, blocks: seq<(Identifier, RawBlock)>)
    requires CompactAll(rules, blocks).Ok? && DistinctKeys(blocks)
    ensures |CompactAll(rules, blocks).value.blocks| == |blocks|
    ensures forall i :: 0 <= i < |blocks| ==>
      && VerifyBlock(blocks[i].1).Ok?
      && CompactAll(rules, blocks).value.blocks[i] ==
           (blocks[i].0, CompactOf(rules, blocks[i].1, VerifyBlock(blocks[i].1).value))
  {
    CompactSucceeds(rules, blocks, [], []);
    CompactBlocksFrom(rules, blocks, [], []);
    assert [] + ExpectedBlocks(rules, blocks) == ExpectedBlocks(rules, blocks);
    ExpectedIndex(rules, blocks);
  }

  lemma {:induction false} ExpectedIndex(rules: Option<RuleTable>, blocks: seq<(Identifier, RawBlock)>)
    requires forall i :: 0 <= i < |blocks| ==> VerifyBlock(blocks[i].1).Ok?
    ensures |ExpectedBlocks(rules, blocks)| == |blocks|
    ensures forall i :: 0 <= i < |blocks| ==>
      ExpectedBlocks(rules, blocks)[i] == (blocks[i].0, CompactOf(rules, blocks[i].1, VerifyBlock(blocks[i].1).value))
  {
    if |blocks| > 0 {
      ExpectedIndex(rules, blocks[1..]);
    }
  }
}

=== FILE: compare.dfy ===
/** One-directional compatibility between two intermediary versions: each
    enumeration of the base version is looked up in the target version and
    its value list compared. */
module Compare {
  import opened Wrappers
  import opened OrderedMap

  /** Equal, MissingEnd and DifferentOrdering are documented as fully
      compatible; LongerEnd and DifferentValues as not compatible. */
  datatype PropertyComparison = Equal | MissingEnd | LongerEnd | DifferentOrdering | DifferentValues

  predicate IsPrefix(a: seq<string>, b: seq<string>) {
    |a| <= |b| && a == b[..|a|]
  }

  /** The verdict the comparison loops compute, stated on the sequences as
      wholes: the reference the loops are held to. It does not follow every
      variant's documentation: `LongerEnd` never arises, and a longer base
      whose values all occur in the target is `DifferentOrdering`. */
  function Verdict(base: seq<string>, target: seq<string>): PropertyComparison {
    if base == target then Equal
    else if IsPrefix(base, target) then MissingEnd
    else if forall v :: v in base ==> v in target then DifferentOrdering
    else DifferentValues
  }

  /** `PropertyComparison::compare`: the first loop counts the matches of the
      common prefix, leaving off at the first mismatch and stopping at the
      first match after it; the second loop looks for a base value that the
      target lacks. */
  method Compare(base: seq<string>, target: seq<string>) returns (r: PropertyComparison)
    ensures r == Verdict(base, target)
  {
    if base == target {
      return Equal;
    }
    var lastIndex := 0;
    var i := 0;
    while i < |base|
      invariant 0 <= lastIndex <= i <= |base|
      invariant lastIndex <= |target| && base[..lastIndex] == target[..lastIndex]
      invariant lastIndex < i ==> lastIndex >= |target| || base[lastIndex] != target[lastIndex]
    {
      if i < |target| && target[i] == base[i] {
        if lastIndex != i {
          break;
        }
        lastIndex := lastIndex + 1;
      }
      i := i + 1;
    }
    if lastIndex == |base| {
      assert IsPrefix(base, target);
      if |target| > |base| {
        return MissingEnd;
      } else {
        return LongerEnd;
      }
    }
    assert lastIndex < i;
    assert !IsPrefix(base, target) by {
      assert lastIndex >= |target| || base[lastIndex] != target[lastIndex];
    }
    var j := 0;
    while j < |base|
      invariant 0 <= j <= |base|
      invariant forall k :: 0 <= k < j ==> base[k] in target
    {
      if base[j] !in target {
        return DifferentValues;
      }
      j := j + 1;
    }
    return DifferentOrdering;
  }

  /** `LongerEnd` is never the answer: the prefix test only succeeds when the
      whole base is a prefix of the target, and a base that equals no target
      yet is its prefix is strictly shorter. A base that extends its target
      lands on DifferentOrdering or DifferentValues instead. */
  lemma LongerEndUnreachable(base: seq<string>, target: seq<string>)
    ensures Verdict(base, target) != LongerEnd
    ensures |base| > |target| && IsPrefix(target, base) ==>
      Verdict(base, target) == (if forall v :: v in base ==> v in target then DifferentOrdering else DifferentValues)
  {
  }

  /** The verdicts documented as compatible are exactly those where every
      base value still exists in the target. */
  lemma CompatibleIff(base: seq<string>, target: seq<string>)
    ensures Verdict(base, target) in {Equal, MissingEnd, DifferentOrdering} <==> forall v :: v in base ==> v in target
  {
    if IsPrefix(base, target) {
      forall v | v in base ensures v in target {
        var k :| 0 <= k < |base| && base[k] == v;
        assert target[..|base|][k] == v;
      }
    }
  }

  lemma ExampleExtraValue(base: seq<string>, target: seq<string>)
    requires base == ["a", "b", "c"] && target == ["a", "b"]
    ensures Verdict(base, target) == DifferentValues
  {
    assert base[2] == "c" && "c" !in target;
  }

  lemma ExampleReordered(base: seq<string>, target: seq<string>)
    requires base == ["a", "b"] && target == ["b", "a"]
    ensures Verdict(base, target) == DifferentOrdering
  {
    assert base[0] != target[0];
  }

  lemma ExampleEmptyBase(target: seq<string>)
    requires target != []
    ensures Verdict([], target) == MissingEnd
  {
  }

  /** A base longer than the target, documented as `LongerEnd`, is judged
      `DifferentOrdering` when its values all occur in the target. */
  lemma ExampleLongerBase(base: seq<string>, target: seq<string>)
    requires base == ["a", "b", "a"] && target == ["a", "b"]
    ensures Verdict(base, target) == DifferentOrdering
  {
    assert forall v :: v in base ==> v in target;
  }

  // ---------------------------------------------------------------------
  // The command's report

  datatype Finding = MissingProperty(name: string) | Diverges(name: string, verdict: PropertyComparison)

  /** What the command reports for one base enumeration: nothing when the
      target holds an equal value list under the same name. */
  function FindingFor(name: string, values: seq<string>, target: seq<(string, seq<string>)>): (r: Option<Finding>)
    ensures r.None? <==> Lookup(target, name) == Some(values)
    ensures r.Some? ==> r.value.name == name
  {
    match Lookup(target, name)
    case None => Some(MissingProperty(name))
    case Some(t) => if Verdict(values, t) == Equal then None else Some(Diverges(name, Verdict(values, t)))
  }

  /** The loop over the base version's enumerations, in their order. */
  function Findings(base: seq<(string, seq<string>)>, target: seq<(string, seq<string>)>): (r: seq<Finding>)
    ensures |r| <= |base|
    ensures forall f :: f in r ==> exists i :: 0 <= i < |base| && FindingFor(base[i].0, base[i].1, target) == Some(f)
    ensures forall i :: 0 <= i < |base| && FindingFor(base[i].0, base[i].1, target).Some? ==>
      FindingFor(base[i].0, base[i].1, target).value in r
  {
    if |base| == 0 then []
    else
      var rest := Findings(base[1..], target);
      assert forall i :: 1 <= i < |base| ==> base[i] == base[1..][i - 1];
      match FindingFor(base[0].0, base[0].1, target)
      case None => rest
      case Some(f) => [f] + rest
  }

  /** One base enumeration contributes its finding, if any. */
  lemma FindingsSingle(e: (string, seq<string>), target: seq<(string, seq<string>)>)
    ensures Findings([e], target) ==
      match FindingFor(e.0, e.1, target) case None => [] case Some(f) => [f]
  {
    assert [e][1..] == [];
  }

  /** Findings are reported in the base version's order. */
  lemma {:induction false} FindingsAppend(a: seq<(string, seq<string>)>, b: seq<(string, seq<string>)>,
                                          target: seq<(string, seq<string>)>)
    ensures Findings(a + b, target) == Findings(a, target) + Findings(b, target)
    decreases |a|
  {
    if |a| == 0 {
      assert a + b == b;
    } else {
      assert (a + b)[0] == a[0];
      assert (a + b)[1..] == a[1..] + b;
      FindingsAppend(a[1..], b, target);
    }
  }

  /** A finding names the base enumeration it is about; a missing property
      is one the target lacks, a divergence carries the verdict against the
      target's values of the same name. */
  lemma FindingMeaning(base: seq<(string, seq<string>)>, target: seq<(string, seq<string>)>, f: Finding)
    requires f in Findings(base, target)
    ensures f.name in Keys(base)
    ensures f.MissingProperty? ==> f.name !in Keys(target)
    ensures f.Diverges? ==> f.verdict != Equal && exists values ::
      (f.name, values) in base && Lookup(target, f.name).Some? && f.verdict == Verdict(values, Lookup(target, f.name).value)
  {
    var i :| 0 <= i < |base| && FindingFor(base[i].0, base[i].1, target) == Some(f);
    assert Keys(base)[i] == f.name;
    assert base[i] in base;
  }

  /** A version compared with itself yields no finding. */
  lemma {:induction false} SelfCompatible(base: seq<(string, seq<string>)>)
    requires DistinctKeys(base)
    ensures Findings(base, base) == []
  {
    forall i | 0 <= i < |base| ensures FindingFor(base[i].0, base[i].1, base).None? {
      LookupDistinct(base, i);
    }
    NoFindings(base, base);
  }

  lemma {:induction false} NoFindings(base: seq<(string, seq<string>)>, target: seq<(string, seq<string>)>)
    requires forall i :: 0 <= i < |base| ==> FindingFor(base[i].0, base[i].1, target).None?
    ensures Findings(base, target) == []
  {
    if |base| > 0 {
      assert forall i :: 1 <= i < |base| ==> base[i] == base[1..][i - 1];
      NoFindings(base[1..], target);
    }
  }
}

=== FILE: identifier.dfy ===
/** Block identifiers `namespace:location`, with the namespace defaulting to
    `minecraft` when the colon and namespace are absent. */
module Identifier {
  import opened Wrappers

  datatype Identifier = Identifier(namespace: string, location: string)

  const DefaultNamespace: string := "minecraft"

  /** One of `0123456789abcdefghijklmnopqrstuvwxyz-_.`. */
  predicate IsNamespaceChar(c: char) {
    '0' <= c <= '9' || 'a' <= c <= 'z' || c == '-' || c == '_' || c == '.'
  }

  /** A namespace character or `/`. */
  predicate IsLocationChar(c: char) {
    IsNamespaceChar(c) || c == '/'
  }

  predicate AllNamespace(s: string) {
    forall i :: 0 <= i < |s| ==> IsNamespaceChar(s[i])
  }

  predicate AllLocation(s: string) {
    forall i :: 0 <= i < |s| ==> IsLocationChar(s[i])
  }

  function FromFull(namespace: string, location: string): Identifier {
    Identifier(namespace, location)
  }

  function FromLocation(location: string): Identifier {
    Identifier(DefaultNamespace, location)
  }

  /** The `Display` and `Serialize` form. */
  function Show(id: Identifier): string {
    id.namespace + ":" + id.location
  }

  /** `take_while` of namespace characters: the length of the longest prefix
      made of them. It never fails. */
  function NamespaceSpan(s: string): (n: nat)
    ensures n <= |s| && AllNamespace(s[..n])
    ensures n < |s| ==> !IsNamespaceChar(s[n])
  {
    if |s| == 0 || !IsNamespaceChar(s[0]) then 0
    else
      var n := 1 + NamespaceSpan(s[1..]);
      assert s[..n] == [s[0]] + s[1..][..n - 1];
      n
  }

  /** `take_while` of location characters. */
  function LocationSpan(s: string): (n: nat)
    ensures n <= |s| && AllLocation(s[..n])
    ensures n < |s| ==> !IsLocationChar(s[n])
  {
    if |s| == 0 || !IsLocationChar(s[0]) then 0
    else
      var n := 1 + LocationSpan(s[1..]);
      assert s[..n] == [s[0]] + s[1..][..n - 1];
      n
  }

  /** The text read as the location: what follows `namespace:` when the
      namespace characters are followed by a colon, otherwise all of `s`. */
  function LocationPart(s: string): (rest: string)
    ensures |rest| <= |s|
  {
    var n := NamespaceSpan(s);
    if n < |s| && s[n] == ':' then s[n + 1..] else s
  }

  /** `Identifier::try_from`: first `namespace ':' location`; only if no colon
      follows the namespace characters, a bare location in the default
      namespace. Leftover input is an error carrying the length of the parsed
      location (not the position in the input). */
  function Parse(s: string): (r: Result<Identifier, nat>)
    ensures r.Ok? ==> AllNamespace(r.value.namespace) || r.value.namespace == DefaultNamespace
    ensures r.Ok? ==> AllLocation(r.value.location)
    ensures r.Ok? ==> s == Show(r.value) || (r.value == FromLocation(s) && ':' !in s)
    ensures r.Err? ==> r.error < |s|
    ensures r.Ok? ==> r.value.location == LocationPart(s)
    ensures r.Err? ==> var rest := LocationPart(s);
      && r.error < |rest|
      && AllLocation(rest[..r.error])
      && !IsLocationChar(rest[r.error])
  {
    var n := NamespaceSpan(s);
    if n < |s| && s[n] == ':' then
      var rest := s[n + 1..];
      var m := LocationSpan(rest);
      if m == |rest| then
        assert s == s[..n] + ":" + rest;
        Ok(FromFull(s[..n], rest))
      else Err(m)
    else
      var m := LocationSpan(s);
      if m == |s| then
        assert s[..m] == s;
        Ok(FromLocation(s))
      else Err(m)
  }

  lemma NamespaceSpanAll(a: string, rest: string)
    requires AllNamespace(a)
    requires |rest| > 0 && !IsNamespaceChar(rest[0])
    ensures NamespaceSpan(a + rest) == |a|
  {
    if |a| > 0 {
      assert (a + rest)[1..] == a[1..] + rest;
      NamespaceSpanAll(a[1..], rest);
    } else {
      assert a + rest == rest;
    }
  }

  lemma LocationSpanAll(a: string)
    requires AllLocation(a)
    ensures LocationSpan(a) == |a|
  {
    if |a| > 0 {
      LocationSpanAll(a[1..]);
    }
  }

  /** The displayed form parses back to the same identifier whenever both
      segments are within their alphabets. */
  lemma ParseShow(id: Identifier)
    requires AllNamespace(id.namespace) && AllLocation(id.location)
    ensures Parse(Show(id)) == Ok(id)
  {
    var s := Show(id);
    NamespaceSpanAll(id.namespace, ":" + id.location);
    assert s == id.namespace + (":" + id.location);
    assert s[|id.namespace| + 1..] == id.location;
    LocationSpanAll(id.location);
    assert s[..|id.namespace|] == id.namespace;
  }

  /** A bare location without a colon lands in the default namespace. */
  lemma ParseLocationOnly(s: string)
    requires AllLocation(s) && ':' !in s
    ensures Parse(s) == Ok(FromLocation(s))
  {
    LocationSpanAll(s);
    var n := NamespaceSpan(s);
    assert n < |s| ==> s[n] != ':';
  }

  /** A bare location, as the program's test `"test1"`. */
  lemma ExampleLocation()
    ensures Parse("test1") == Ok(FromLocation("test1"))
  {
    ParseLocationOnly("test1");
  }

  /** A full identifier, as the program's test `"test_2:other/value"`. */
  lemma ExampleFull(s: string, namespace: string, location: string)
    requires namespace == "test_2" && location == "other/value" && s == namespace + ":" + location
    ensures Parse(s) == Ok(FromFull(namespace, location))
  {
    assert AllNamespace(namespace) by {
      assert forall i :: 0 <= i < |namespace| ==> IsNamespaceChar(namespace[i]);
    }
    assert AllLocation(location) by {
      assert forall i :: 0 <= i < |location| ==> IsLocationChar(location[i]);
    }
    ParseShow(FromFull(namespace, location));
  }

  /** The program's error test: a `/` stops the namespace, the fallback
      parses the location `"test/2"` and the colon is left over, so the error
      is 6. */
  lemma ExampleLeftover(s: string)
    requires s == "test/2:other"
    ensures Parse(s) == Err(6)
  {
    LeftoverSpans(s);
    ParseFallbackError(s);
  }

  lemma LeftoverSpans(s: string)
    requires s == "test/2:other"
    ensures NamespaceSpan(s) == 4 && s[4] == '/'
    ensures LocationSpan(s) == 6
  {
    LeftoverNamespace(s, "test", "/2:other");
    LeftoverLocation(s, "test/2");
  }

  lemma LeftoverNamespace(s: string, ns: string, rest: string)
    requires ns == "test" && rest == "/2:other" && s == ns + rest
    ensures NamespaceSpan(s) == 4
  {
    assert AllNamespace(ns) by {
      assert forall i :: 0 <= i < |ns| ==> IsNamespaceChar(ns[i]);
    }
    NamespaceSpanAll(ns, rest);
  }

  lemma LeftoverLocation(s: string, loc: string)
    requires loc == "test/2" && s == loc + ":other"
    ensures LocationSpan(s) == 6
  {
    assert AllLocation(loc) by {
      assert forall i :: 0 <= i < |loc| ==> IsLocationChar(loc[i]);
    }
    assert s[..6] == loc;
    LocationSpanPrefix(s, 6);
  }

  /** Without a colon after the namespace characters, leftover input after the
      location is an error carrying the location's length. */
  lemma ParseFallbackError(s: string)
    requires NamespaceSpan(s) < |s| && s[NamespaceSpan(s)] != ':'
    requires LocationSpan(s) < |s|
    ensures Parse(s) == Err(LocationSpan(s))
  {
  }

  /** Once `namespace:location` matched a prefix the fallback is not tried:
      `"a:b:c"` is an error of 1. */
  lemma ExampleTwoColons()
    ensures Parse("a:b:c") == Err(1)
  {
    var s := "a:b:c";
    assert NamespaceSpan(s) == 1 by {
      NamespaceSpanAll("a", ":b:c");
      assert "a" + ":b:c" == s;
    }
    assert s[2..] == "b:c";
    assert LocationSpan("b:c") == 1 by {
      LocationSpanPrefix("b:c", 1);
    }
  }

  /** The span stops at the first character outside the alphabet. */
  lemma LocationSpanPrefix(s: string, n: nat)
    requires n < |s| && AllLocation(s[..n]) && !IsLocationChar(s[n])
    ensures LocationSpan(s) == n
  {
    if n > 0 {
      assert s[1..][..n - 1] == s[..n][1..];
      LocationSpanPrefix(s[1..], n - 1);
    }
  }
}

=== FILE: mixed_radix.dfy ===
/** Mixed-radix numbering of a block's states. A state is a sequence of
    digits, one per property in the state's own order: the digit's index is
    the position of the chosen value in the property's value list and its
    size is the length of that list. The last property varies fastest. */
module MixedRadix {

  datatype Digit = Digit(index: nat, size: nat)

  /** Every index is below its size. */
  predicate Valid(ds: seq<Digit>) {
    forall i :: 0 <= i < |ds| ==> ds[i].index < ds[i].size
  }

  function Sizes(ds: seq<Digit>): (r: seq<nat>)
    ensures |r| == |ds|
  {
    seq(|ds|, i requires 0 <= i < |ds| => ds[i].size)
  }

  /** The number of distinct digit sequences with these sizes. */
  function Radix(sizes: seq<nat>): nat {
    if |sizes| == 0 then 1 else Radix(sizes[..|sizes| - 1]) * sizes[|sizes| - 1]
  }

  /** The reference numbering: positional value, most significant digit first. */
  function Value(ds: seq<Digit>): nat {
    if |ds| == 0 then 0
    else Value(ds[..|ds| - 1]) * ds[|ds| - 1].size + ds[|ds| - 1].index
  }

  /** The verifier's loop: walks the digits from the last one backwards;
      at each step `factor *= prev_factor`, `prev_factor = size` and
      `offset += factor * index`. */
  function Scan(ds: seq<Digit>, factor: int, prevFactor: int, offset: int): (r: int)
    ensures 0 <= factor && 0 <= prevFactor ==> offset <= r
    decreases |ds|
  {
    if |ds| == 0 then offset
    else
      var d := ds[|ds| - 1];
      var f := factor * prevFactor;
      Scan(ds[..|ds| - 1], f, d.size, offset + f * d.index)
  }

  /** The loop computes the positional value. */
  lemma {:induction false} ScanValue(ds: seq<Digit>, factor: int, prevFactor: int, offset: int)
    ensures Scan(ds, factor, prevFactor, offset) == offset + factor * prevFactor * Value(ds)
    decreases |ds|
  {
    if |ds| > 0 {
      var d := ds[|ds| - 1];
      var f := factor * prevFactor;
      var v := Value(ds[..|ds| - 1]);
      ScanValue(ds[..|ds| - 1], f, d.size, offset + f * d.index);
      assert Value(ds) == v * d.size + d.index;
      ScanStepArith(f, d.size, d.index, v);
    }
  }

  lemma ScanStepArith(f: int, s: int, i: int, v: int)
    ensures f * i + f * s * v == f * (v * s + i)
  {
    assert f * s * v == f * (v * s);
  }

  /** Started as in the source (`factor = prev_factor = 1`, `offset = 0`),
      the loop yields exactly the positional value. */
  lemma ScanFromStart(ds: seq<Digit>)
    ensures Scan(ds, 1, 1, 0) == Value(ds)
  {
    ScanValue(ds, 1, 1, 0);
  }

  lemma MulLeMono(a: nat, b: nat, c: nat)
    requires a <= b
    ensures a * c <= b * c
  {
  }

  /** Valid digits number from 0 up to, but excluding, the product of sizes. */
  lemma {:induction false} ValueBound(ds: seq<Digit>)
    requires Valid(ds)
    ensures Value(ds) < Radix(Sizes(ds))
  {
    if |ds| > 0 {
      var init := ds[..|ds| - 1];
      var d := ds[|ds| - 1];
      assert Sizes(ds)[..|ds| - 1] == Sizes(init);
      ValueBound(init);
      var r := Radix(Sizes(init));
      MulLeMono(Value(init), r - 1, d.size);
      assert (r - 1) * d.size + d.index < r * d.size;
    }
  }

  /** The digits of `n` for the given sizes (all non-zero): the inverse of `Value`. */
  function Decode(n: nat, sizes: seq<nat>): (ds: seq<Digit>)
    requires forall i :: 0 <= i < |sizes| ==> sizes[i] > 0
    ensures |ds| == |sizes|
    decreases |sizes|
  {
    if |sizes| == 0 then []
    else
      var s := sizes[|sizes| - 1];
      var init := sizes[..|sizes| - 1];
      assert forall i :: 0 <= i < |init| ==> init[i] == sizes[i];
      var q: nat := n / s;
      var m: nat := n % s;
      Decode(q, init) + [Digit(m, s)]
  }

  lemma DivModUnique(a: nat, b: nat, c: nat, d: nat, s: nat)
    requires b < s && d < s && a * s + b == c * s + d
    ensures a == c && b == d
  {
    if a < c {
      MulLeMono(a + 1, c, s);
      assert false;
    } else if c < a {
      MulLeMono(c + 1, a, s);
      assert false;
    }
  }

  /** Decoding the value of valid digits gives the digits back: the numbering
      is lossless. */
  lemma {:induction false} DecodeValue(ds: seq<Digit>)
    requires Valid(ds)
    ensures Decode(Value(ds), Sizes(ds)) == ds
  {
    if |ds| > 0 {
      var init := ds[..|ds| - 1];
      var d := ds[|ds| - 1];
      var n := Value(ds);
      assert Sizes(ds)[..|ds| - 1] == Sizes(init);
      DivModUnique(n / d.size, n % d.size, Value(init), d.index, d.size);
      DecodeValue(init);
      assert ds == init + [d];
    }
  }

  /** Every number below the product of sizes is the value of valid digits. */
  lemma {:induction false} ValueDecode(n: nat, sizes: seq<nat>)
    requires forall i :: 0 <= i < |sizes| ==> sizes[i] > 0
    requires n < Radix(sizes)
    ensures Valid(Decode(n, sizes)) && Sizes(Decode(n, sizes)) == sizes
    ensures Value(Decode(n, sizes)) == n
    decreases |sizes|
  {
    if |sizes| > 0 {
      var s := sizes[|sizes| - 1];
      var init := sizes[..|sizes| - 1];
      var q, m := n / s, n % s;
      var rest := Decode(q, init);
      assert sizes == init + [s];
      assert Decode(n, sizes) == rest + [Digit(m, s)];
      QuotientBound(n, s, Radix(init));
      ValueDecode(q, init);
      DigitSnoc(rest, Digit(m, s));
      DivMod(n, s);
    }
  }

  lemma DivMod(n: nat, s: nat)
    requires s > 0
    ensures n / s * s + n % s == n && n % s < s
  {
  }

  /** Appending a least significant digit scales the value by its size. */
  lemma DigitSnoc(ds: seq<Digit>, d: Digit)
    ensures Valid(ds + [d]) <==> Valid(ds) && d.index < d.size
    ensures Sizes(ds + [d]) == Sizes(ds) + [d.size]
    ensures Value(ds + [d]) == Value(ds) * d.size + d.index
  {
    assert (ds + [d])[..|ds|] == ds && (ds + [d])[|ds|] == d;
    assert forall i :: 0 <= i < |ds| ==> (ds + [d])[i] == ds[i];
  }

  lemma QuotientBound(n: nat, s: nat, r: nat)
    requires s > 0 && n < r * s
    ensures n / s < r
  {
    assert (n / s) * s <= n;
    if n / s >= r {
      MulLeMono(r, n / s, s);
    }
  }

  /** Distinct valid digit sequences over the same sizes have distinct values. */
  lemma ValueInjective(ds: seq<Digit>, es: seq<Digit>)
    requires Valid(ds) && Valid(es) && Sizes(ds) == Sizes(es)
    requires Value(ds) == Value(es)
    ensures ds == es
  {
    DecodeValue(ds);
    DecodeValue(es);
  }
}

=== FILE: modern_blocks.dfy ===
/** The older block reader: it classifies each block's properties into a
    deduplicated global list and recomputes the state ids as the live
    verifier does, without checking the state count or the number of
    properties a state names. */
module ModernBlocks {
  import opened Wrappers
  import opened OrderedMap
  import opened RawBlock
  import opened MixedRadix
  import opened Identifier
  import opened ModernProperty
  import opened U8Parse
  import Compact

  datatype ReadError =
    | EmptyStates                     // no first state to take the base id from
    | CorruptedRange                  // the classifier ends the process
    | MissingStateProperties          // a state without properties in a block with them
    | NonMatchingProperty(name: string)
    | InvalidValue(name: string, value: string)
    | IdMismatch(found: int, expected: int)
    | NoDefault                       // no state is flagged default

  /** A block as read: its own kinds (absent for a block without
      properties), base id and default id. */
  datatype ModernBlockData = ModernBlockData(kinds: Option<seq<(string, ModernKind)>>, base: int, default: int)

  datatype ModernBlockList = ModernBlockList(properties: seq<(string, ModernKind)>, blocks: seq<(Identifier, ModernBlockData)>)

  /** The global list only grows by pairs it does not already hold. */
  function AddKind(global: seq<(string, ModernKind)>, name: string, kind: ModernKind): (r: seq<(string, ModernKind)>)
    ensures (name, kind) in r
    ensures forall e :: e in r <==> e in global || e == (name, kind)
  {
    if (name, kind) in global then global else global + [(name, kind)]
  }

  /** Pairwise distinct entries. */
  predicate NoDuplicates<T(==)>(s: seq<T>) {
    forall i, j :: 0 <= i < j < |s| ==> s[i] != s[j]
  }

  /** The property loop of one block: every declared property is classified
      (a corrupted range ends everything), added to the global list if new,
      and recorded in the block's own map. */
  function ReadProperties(props: seq<(string, seq<string>)>, global: seq<(string, ModernKind)>,
                          local: seq<(string, ModernKind)>)
    : (r: Result<(seq<(string, ModernKind)>, seq<(string, ModernKind)>), ReadError>)
    ensures r.Ok? <==> forall i :: 0 <= i < |props| ==> Classify(props[i].1).Ok?
    ensures r.Err? ==> r.error == CorruptedRange
    decreases |props|
  {
    if |props| == 0 then Ok((global, local))
    else
      assert forall i :: 1 <= i < |props| ==> props[i] == props[1..][i - 1];
      match Classify(props[0].1)
      case Err(_) => Err(CorruptedRange)
      case Ok(kind) => ReadProperties(props[1..], AddKind(global, props[0].0, kind), Insert(local, props[0].0, kind))
  }

  /** The global list after a property loop holds what it held before and
      every declared property with its kind, nothing else, and never the
      same pair twice. */
  lemma {:induction false} ReadPropertiesGlobal(props: seq<(string, seq<string>)>, global: seq<(string, ModernKind)>,
                                                local: seq<(string, ModernKind)>)
    requires ReadProperties(props, global, local).Ok?
    requires NoDuplicates(global)
    ensures var g := ReadProperties(props, global, local).value.0;
      && NoDuplicates(g)
      && global <= g
      && forall e :: e in g <==> e in global || exists i :: 0 <= i < |props| && e == (props[i].0, Classify(props[i].1).value)
    decreases |props|
  {
    if |props| > 0 {
      var kind := Classify(props[0].1).value;
      var global' := AddKind(global, props[0].0, kind);
      ReadPropertiesGlobal(props[1..], global', Insert(local, props[0].0, kind));
      assert forall i :: 1 <= i < |props| ==> props[i] == props[1..][i - 1];
      var g := ReadProperties(props, global, local).value.0;
      forall e | e in g ensures e in global || exists i :: 0 <= i < |props| && e == (props[i].0, Classify(props[i].1).value) {
        if e !in global' {
          var i :| 0 <= i < |props[1..]| && e == (props[1..][i].0, Classify(props[1..][i].1).value);
          assert e == (props[i + 1].0, Classify(props[i + 1].1).value);
        }
      }
    }
  }

  /** A state's id check: it must carry properties, each named and valued as
      declared, and its id must be the base id plus the mixed-radix offset. */
  function StateId(props: seq<(string, seq<string>)>, base: int, s: StateInput): (r: Result<int, ReadError>)
    ensures r.Ok? ==> r.value == s.id
    ensures r.Err? ==> r.error != EmptyStates
  {
    match s.properties
    case None => Err(MissingStateProperties)
    case Some(assignment) =>
      match Compact.OffsetLoop(props, assignment, 1, 1, 0)
      case Err(e) =>
        if e.UnknownProperty? then Err(NonMatchingProperty(e.name))
        else if e.UnknownValue? then Err(InvalidValue(e.name, e.value))
        else assert false; Err(EmptyStates)
      case Ok(offset) =>
        var id := base + offset;
        if id != s.id then Err(IdMismatch(s.id, id)) else Ok(id)
  }

  /** What this reader demands of one state. */
  predicate StateAccepted(props: seq<(string, seq<string>)>, base: int, s: StateInput) {
    && s.properties.Some?
    && Compact.StateDigits(props, s.properties.value).Ok?
    && s.id == base + Value(Compact.StateDigits(props, s.properties.value).value)
  }

  lemma StateIdAccepted(props: seq<(string, seq<string>)>, base: int, s: StateInput)
    ensures StateId(props, base, s).Ok? <==> StateAccepted(props, base, s)
  {
    if s.properties.Some? {
      Compact.StateOffset(props, s.properties.value);
    }
  }

  /** The state loop: stops at the first rejected state; the last state
      flagged default wins. */
  function ReadStates(props: seq<(string, seq<string>)>, base: int, states: seq<StateInput>, default: Option<int>)
    : (r: Result<Option<int>, ReadError>)
    ensures r.Err? ==> r.error != EmptyStates
    decreases |states|
  {
    if |states| == 0 then Ok(default)
    else
      var id :- StateId(props, base, states[0]);
      ReadStates(props, base, states[1..], if states[0].default == Some(true) then Some(id) else default)
  }

  /** The state loop accepts exactly when every state is accepted, and then
      reports the id of the last state flagged default. */
  lemma {:induction false} ReadStatesSpec(props: seq<(string, seq<string>)>, base: int, states: seq<StateInput>, default: Option<int>)
    ensures ReadStates(props, base, states, default).Ok? <==>
      forall i :: 0 <= i < |states| ==> StateAccepted(props, base, states[i])
    ensures ReadStates(props, base, states, default).Ok? ==>
      ReadStates(props, base, states, default).value ==
        (if Flagged(states).Some? then Flagged(states) else default)
    decreases |states|
  {
    if |states| > 0 {
      var s := states[0];
      StateIdAccepted(props, base, s);
      AllAcceptedCons(props, base, states);
      if StateAccepted(props, base, s) {
        var next := if s.default == Some(true) then Some(s.id) else default;
        ReadStatesSpec(props, base, states[1..], next);
        assert ReadStates(props, base, states, default) == ReadStates(props, base, states[1..], next);
      } else {
        assert ReadStates(props, base, states, default).Err?;
      }
    }
  }

  lemma AllAcceptedCons(props: seq<(string, seq<string>)>, base: int, states: seq<StateInput>)
    requires |states| > 0
    ensures (forall i :: 0 <= i < |states| ==> StateAccepted(props, base, states[i])) <==>
      StateAccepted(props, base, states[0]) &&
      forall i :: 0 <= i < |states[1..]| ==> StateAccepted(props, base, states[1..][i])
  {
    assert forall i :: 0 <= i < |states[1..]| ==> states[1..][i] == states[i + 1];
  }

  /** The id of the last state flagged default. */
  function Flagged(states: seq<StateInput>): (r: Option<int>)
    ensures r.None? <==> forall i :: 0 <= i < |states| ==> states[i].default != Some(true)
  {
    if |states| == 0 then None
    else
      var rest := Flagged(states[1..]);
      assert forall i :: 1 <= i < |states| ==> states[i] == states[1..][i - 1];
      if rest.Some? then rest
      else if states[0].default == Some(true) then Some(states[0].id)
      else None
  }

  /** The same state as the live verifier finds it once the missing
      `default` flags read as `false`. */
  lemma {:induction false} FlaggedLive(states: seq<StateInput>, raw: seq<RawState>)
    requires |raw| == |states|
    requires forall i :: 0 <= i < |states| ==> raw[i] == StateWithDefaults(states[i])
    ensures Flagged(states) == Compact.LastDefault(raw)
  {
    if |states| > 0 {
      FlaggedLive(states[1..], raw[1..]);
    }
  }

  /** One block: base id from the first state; with properties, classify
      them, check every state and require a default; without, the default
      is the base id and no state is examined. */
  function ReadBlock(global: seq<(string, ModernKind)>, b: BlockInput)
    : (r: Result<(seq<(string, ModernKind)>, ModernBlockData), ReadError>)
    ensures r == Err(EmptyStates) <==> |b.states| == 0
    ensures r.Ok? ==> r.value.1.base == b.states[0].id
    ensures r.Ok? && b.properties.None? ==> r.value.0 == global && r.value.1 == ModernBlockData(None, b.states[0].id, b.states[0].id)
  {
    if |b.states| == 0 then Err(EmptyStates)
    else
      var base := b.states[0].id;
      match b.properties
      case None => Ok((global, ModernBlockData(None, base, base)))
      case Some(props) =>
        var (global', local) :- ReadProperties(props, global, []);
        var found :- ReadStates(props, base, b.states, None);
        match found
        case None => Err(NoDefault)
        case Some(default) => Ok((global', ModernBlockData(Some(local), base, default)))
  }

  /** What the reader demands of a block with properties. */
  predicate Accepted(b: BlockInput) {
    && |b.states| > 0
    && (b.properties.Some? ==>
      && (forall i :: 0 <= i < |b.properties.value| ==> Classify(b.properties.value[i].1).Ok?)
      && (forall i :: 0 <= i < |b.states| ==> StateAccepted(b.properties.value, b.states[0].id, b.states[i]))
      && Flagged(b.states).Some?)
  }

  /** A block is read exactly when it is accepted, and its default is then
      the last flagged state's id (or the base id for a block without
      properties). */
  lemma ReadBlockSpec(global: seq<(string, ModernKind)>, b: BlockInput)
    ensures ReadBlock(global, b).Ok? <==> Accepted(b)
    ensures ReadBlock(global, b).Ok? && b.properties.Some? ==>
      ReadBlock(global, b).value.1.default == Flagged(b.states).value
  {
    if |b.states| > 0 && b.properties.Some? {
      ReadStatesSpec(b.properties.value, b.states[0].id, b.states, None);
    }
  }

  /** The block loop: blocks keyed by identifier, in order; the global list
      threads through. */
  function ReadFrom(blocks: seq<(Identifier, BlockInput)>, global: seq<(string, ModernKind)>,
                    out: seq<(Identifier, ModernBlockData)>): (r: Result<ModernBlockList, ReadError>)
    ensures r.Ok? ==> |r.value.blocks| <= |out| + |blocks|
    decreases |blocks|
  {
    if |blocks| == 0 then Ok(ModernBlockList(global, out))
    else
      var (global', data) :- ReadBlock(global, blocks[0].1);
      var out' := Insert(out, blocks[0].0, data);
      ReadFrom(blocks[1..], global', out')
  }

  /** One turn of the block loop on a block that is read. */
  lemma ReadStep(blocks: seq<(Identifier, BlockInput)>, global: seq<(string, ModernKind)>,
                 out: seq<(Identifier, ModernBlockData)>)
    requires |blocks| > 0 && ReadBlock(global, blocks[0].1).Ok?
    ensures ReadFrom(blocks, global, out) ==
      ReadFrom(blocks[1..], ReadBlock(global, blocks[0].1).value.0,
        Insert(out, blocks[0].0, ReadBlock(global, blocks[0].1).value.1))
  {
  }

  /** Reading loses no block: every identifier already read and every input
      block's identifier is a key of the output. */
  lemma {:induction false} ReadFromKeys(blocks: seq<(Identifier, BlockInput)>, global: seq<(string, ModernKind)>,
                                        out: seq<(Identifier, ModernBlockData)>)
    requires ReadFrom(blocks, global, out).Ok?
    ensures forall k :: k in Keys(out) ==> k in Keys(ReadFrom(blocks, global, out).value.blocks)
    ensures forall i :: 0 <= i < |blocks| ==> blocks[i].0 in Keys(ReadFrom(blocks, global, out).value.blocks)
    decreases |blocks|
  {
    if |blocks| > 0 {
      var id := blocks[0].0;
      var r := ReadBlock(global, blocks[0].1);
      assert r.Ok?;
      ReadStep(blocks, global, out);
      ReadFromKeys(blocks[1..], r.value.0, Insert(out, id, r.value.1));
      var ks := Keys(ReadFrom(blocks[1..], r.value.0, Insert(out, id, r.value.1)).value.blocks);
      InsertCarries(out, id, r.value.1, ks);
      FirstsCons(blocks, ks);
    }
  }

  /** Over a map of read blocks, reading never shrinks the output. */
  lemma {:induction false} ReadFromLength(blocks: seq<(Identifier, BlockInput)>, global: seq<(string, ModernKind)>,
                                          out: seq<(Identifier, ModernBlockData)>)
    requires ReadFrom(blocks, global, out).Ok? && DistinctKeys(out)
    ensures |out| <= |ReadFrom(blocks, global, out).value.blocks|
    decreases |blocks|
  {
    if |blocks| > 0 {
      var r := ReadBlock(global, blocks[0].1);
      assert r.Ok?;
      ReadStep(blocks, global, out);
      InsertLength(out, blocks[0].0, r.value.1);
      InsertDistinct(out, blocks[0].0, r.value.1);
      ReadFromLength(blocks[1..], r.value.0, Insert(out, blocks[0].0, r.value.1));
    }
  }

  /** Identifiers already read keep their order at the front of the output
      as long as no input block repeats one of them. */
  lemma {:induction false} ReadFromPrefix(blocks: seq<(Identifier, BlockInput)>, global: seq<(string, ModernKind)>,
                                          out: seq<(Identifier, ModernBlockData)>, p: seq<Identifier>)
    requires ReadFrom(blocks, global, out).Ok?
    requires p <= Keys(out)
    requires forall i :: 0 <= i < |blocks| ==> blocks[i].0 !in p
    ensures p <= Keys(ReadFrom(blocks, global, out).value.blocks)
    decreases |blocks|
  {
    if |blocks| > 0 {
      var r := ReadBlock(global, blocks[0].1);
      assert r.Ok?;
      ReadStep(blocks, global, out);
      InsertPrefix(out, blocks[0].0, r.value.1, p);
      FirstsTail(blocks, p);
      ReadFromPrefix(blocks[1..], r.value.0, Insert(out, blocks[0].0, r.value.1), p);
    }
  }

  function ReadList(blocks: seq<(Identifier, BlockInput)>): (r: Result<ModernBlockList, ReadError>)
    ensures r.Ok? ==> |r.value.blocks| <= |blocks|
  {
    ReadFrom(blocks, [], [])
  }

  /** The list is read exactly when every block is accepted, and its global
      property list never holds a pair twice. */
  lemma {:induction false} ReadFromSpec(blocks: seq<(Identifier, BlockInput)>, global: seq<(string, ModernKind)>,
                                        out: seq<(Identifier, ModernBlockData)>)
    requires NoDuplicates(global)
    ensures ReadFrom(blocks, global, out).Ok? <==> forall i :: 0 <= i < |blocks| ==> Accepted(blocks[i].1)
    ensures ReadFrom(blocks, global, out).Ok? ==> NoDuplicates(ReadFrom(blocks, global, out).value.properties)
    decreases |blocks|
  {
    if |blocks| > 0 {
      var b := blocks[0].1;
      ReadBlockSpec(global, b);
      AcceptedCons(blocks);
      var r := ReadBlock(global, b);
      if r.Ok? {
        var out' := Insert(out, blocks[0].0, r.value.1);
        ReadBlockGlobal(global, b);
        ReadFromSpec(blocks[1..], r.value.0, out');
        assert ReadFrom(blocks, global, out) == ReadFrom(blocks[1..], r.value.0, out');
      } else {
        assert ReadFrom(blocks, global, out).Err?;
      }
    }
  }

  lemma AcceptedCons(blocks: seq<(Identifier, BlockInput)>)
    requires |blocks| > 0
    ensures (forall i :: 0 <= i < |blocks| ==> Accepted(blocks[i].1)) <==>
      Accepted(blocks[0].1) && forall i :: 0 <= i < |blocks[1..]| ==> Accepted(blocks[1..][i].1)
  {
    assert forall i :: 0 <= i < |blocks[1..]| ==> blocks[1..][i] == blocks[i + 1];
  }

  /** Reading a block keeps the global list free of duplicates. */
  lemma ReadBlockGlobal(global: seq<(string, ModernKind)>, b: BlockInput)
    requires NoDuplicates(global) && ReadBlock(global, b).Ok?
    ensures NoDuplicates(ReadBlock(global, b).value.0)
  {
    if b.properties.Some? {
      ReadBlockProperties(global, b);
      ReadPropertiesGlobal(b.properties.value, global, []);
    }
  }

  /** A block with properties leaves the global table as its properties do. */
  lemma ReadBlockProperties(global: seq<(string, ModernKind)>, b: BlockInput)
    requires ReadBlock(global, b).Ok? && b.properties.Some?
    ensures ReadProperties(b.properties.value, global, []).Ok?
    ensures ReadBlock(global, b).value.0 == ReadProperties(b.properties.value, global, []).value.0
  {
  }

  /** Every block the live verifier accepts, given in the older format with
      properties on the block and every state and at least one flagged
      default, is accepted here with the same base and default ids. */
  lemma LiveImpliesAccepted(b: BlockInput)
    requires b.properties.Some? && forall i :: 0 <= i < |b.states| ==> b.states[i].properties.Some?
    requires Flagged(b.states).Some?
    requires forall i :: 0 <= i < |b.properties.value| ==> Classify(b.properties.value[i].1).Ok?
    requires Compact.VerifyBlock(BlockWithDefaults(b)).Ok?
    ensures ReadBlock([], b).Ok?
    ensures ReadBlock([], b).value.1.base == Compact.VerifyBlock(BlockWithDefaults(b)).value.base
    ensures ReadBlock([], b).value.1.default == Compact.ReadDefault(Compact.VerifyBlock(BlockWithDefaults(b)).value)
  {
    LiveStatesAccepted(b);
    LiveIds(b);
    ReadBlockSpec([], b);
  }

  /** The live verifier's ids for such a block: the first state's id and the
      last flagged state's id. */
  lemma LiveIds(b: BlockInput)
    requires Flagged(b.states).Some?
    requires Compact.VerifyBlock(BlockWithDefaults(b)).Ok?
    ensures Compact.VerifyBlock(BlockWithDefaults(b)).value.base == b.states[0].id
    ensures Compact.ReadDefault(Compact.VerifyBlock(BlockWithDefaults(b)).value) == Flagged(b.states).value
  {
    var rb := BlockWithDefaults(b);
    FlaggedLive(b.states, rb.states);
    Compact.DefaultRoundTrip(rb);
  }

  lemma LiveStatesAccepted(b: BlockInput)
    requires b.properties.Some? && forall i :: 0 <= i < |b.states| ==> b.states[i].properties.Some?
    requires Compact.VerifyBlock(BlockWithDefaults(b)).Ok?
    ensures forall i :: 0 <= i < |b.states| ==> StateAccepted(b.properties.value, b.states[0].id, b.states[i])
  {
    var rb := BlockWithDefaults(b);
    assert Compact.Consistent(rb);
    forall i | 0 <= i < |b.states| ensures StateAccepted(b.properties.value, b.states[0].id, b.states[i]) {
      LiveStateAccepted(b.properties.value, b.states[0].id, b.states[i], rb.states[i]);
    }
  }

  lemma LiveStateAccepted(props: seq<(string, seq<string>)>, base: int, s: StateInput, raw: RawState)
    requires s.properties.Some? && raw == StateWithDefaults(s)
    requires Compact.StateConsistent(props, base, raw)
    ensures StateAccepted(props, base, s)
  {
  }

  /** This reader does not count states: a block declaring one property with
      two values whose only state names no property is accepted here and
      rejected by the live verifier. */
  lemma AcceptsWhatLiveRejects(b: BlockInput, name: string, values: seq<string>, id: int)
    requires b == BlockInput(Some([(name, values)]), [StateInput(Some([]), id, Some(true))])
    requires |values| == 2 && Classify(values).Ok?
    ensures ReadBlock([], b).Ok?
    ensures Compact.VerifyBlock(BlockWithDefaults(b)) == Err(Compact.StateCountMismatch(1, 2))
  {
    ReadBlockSpec([], b);
    assert StateAccepted(b.properties.value, id, b.states[0]) by {
      assert Compact.StateDigits(b.properties.value, []) == Ok([]);
    }
    var props := BlockWithDefaults(b).properties;
    assert props == [(name, values)];
    assert Product(props) == Product(props[..0]) * 2;
  }
  /** A malformed range, first value a number and last value not, is dropped
      by the live classifier and the block still verifies; here the
      classifier ends the process, so the block is rejected. */
  lemma RejectsWhatLiveAccepts(b: BlockInput, name: string)
    requires b == BlockInput(Some([(name, ["5", "x"])]),
      [StateInput(Some([(name, "5")]), 10, Some(true)), StateInput(Some([(name, "x")]), 11, None)])
    ensures Compact.VerifyBlock(BlockWithDefaults(b)).Ok?
    ensures ReadBlock([], b) == Err(CorruptedRange)
  {
    MixedRangeLive(b, name);
    MixedRangeCorrupt(["5", "x"]);
    var props := b.properties.value;
    assert ReadProperties(props, [], []) == Err(CorruptedRange);
  }

  /** A range whose first bound parses and whose last does not is an error. */
  lemma MixedRangeCorrupt(values: seq<string>)
    requires values == ["5", "x"]
    ensures Classify(values) == Err(Corrupted)
  {
    assert ParseU8("5") == Some(5) by {
      assert Unsigned("5") == "5" && "5"[..0] == "";
    }
    assert ParseU8("x").None? by {
      assert !IsDigit("x"[0]);
    }
  }

  /** The block of `RejectsWhatLiveAccepts` is consistent: its two states
      carry the digits 0 and 1 of a two-valued property. */
  lemma MixedRangeLive(b: BlockInput, name: string)
    requires b == BlockInput(Some([(name, ["5", "x"])]),
      [StateInput(Some([(name, "5")]), 10, Some(true)), StateInput(Some([(name, "x")]), 11, None)])
    ensures Compact.VerifyBlock(BlockWithDefaults(b)).Ok?
  {
    var declared := [(name, ["5", "x"])];
    var rb := BlockWithDefaults(b);
    assert rb.properties == declared;
    assert Product(declared) == Product(declared[..0]) * 2;
    MixedRangeStates(declared, name, rb.states[0], rb.states[1]);
    assert Compact.Consistent(rb);
  }

  /** The two states of `MixedRangeLive` carry the digits 0 and 1 over base 10. */
  lemma MixedRangeStates(declared: seq<(string, seq<string>)>, name: string, s0: RawState, s1: RawState)
    requires declared == [(name, ["5", "x"])]
    requires s0.properties == [(name, "5")] && s0.id == 10
    requires s1.properties == [(name, "x")] && s1.id == 11
    ensures Compact.StateConsistent(declared, 10, s0)
    ensures Compact.StateConsistent(declared, 10, s1)
  {
    assert Lookup(declared, name) == Some(["5", "x"]);
    assert IndexOf(["5", "x"], "5") == Some(0);
    assert IndexOf(["5", "x"], "x") == Some(1) by {
      assert ["5", "x"][1..] == ["x"];
    }
    StateDigitsOne(declared, name, "5", 0, 2);
    StateDigitsOne(declared, name, "x", 1, 2);
  }

  /** A state naming one declared property has one digit. */
  lemma StateDigitsOne(declared: seq<(string, seq<string>)>, name: string, value: string, index: nat, size: nat)
    requires Lookup(declared, name).Some? && |Lookup(declared, name).value| == size
    requires IndexOf(Lookup(declared, name).value, value) == Some(index)
    ensures Compact.StateDigits(declared, [(name, value)]) == Ok([Digit(index, size)])
    ensures Value([Digit(index, size)]) == index
  {
    var a := [(name, value)];
    var d := Digit(index, size);
    assert a[..|a| - 1] == [] && a[|a| - 1] == (name, value);
    assert [d][..0] == [] && [] + [d] == [d];
  }

}

=== FILE: modern_convert.dfy ===
/** The older pipeline's conversion to the intermediary format: kinds become
    text (`"bool"` or an enumeration's name) or an inclusive integer range,
    a default id equal to the base id is dropped, and only enumerations reach
    the global property list. */
module ModernConvert {
  import opened Wrappers
  import opened Identifier
  import opened U8Parse
  import opened ModernProperty

  datatype TextOrRange = Text(text: string) | Range(low: int, high: int)

  /** A block's kinds keyed by original name and optional new name, its base
      id and its default id when that differs from the base id. */
  datatype RawBlockData = RawBlockData(kinds: Option<seq<((string, Option<string>), ModernKind)>>, base: int, default: Option<int>)

  /** A block as written to the intermediary format. */
  datatype BlockData = BlockData(kinds: Option<seq<(string, TextOrRange)>>, base: int, default: Option<int>)

  datatype RawBlockList = RawBlockList(properties: seq<(string, ModernKind)>, blocks: seq<(Identifier, RawBlockData)>)

  datatype BlockList = BlockList(properties: seq<(string, seq<string>)>, blocks: seq<(Identifier, BlockData)>)

  /** `RawBlockData::new`: the default id is kept only when it differs from
      the base id, and reading it back gives the id passed in. */
  function NewBlockData(kinds: Option<seq<((string, Option<string>), ModernKind)>>, base: int, default: int): (r: RawBlockData)
    ensures r.kinds == kinds && r.base == base
    ensures r.default.None? <==> default == base
    ensures DefaultOf(r) == default
  {
    RawBlockData(kinds, base, if base == default then None else Some(default))
  }

  /** The default id a block stands for: the base id when none is kept. */
  function DefaultOf(b: RawBlockData): int {
    match b.default
    case Some(d) => d
    case None => b.base
  }

  /** One kind as written: under its original name, a boolean as `"bool"`,
      a half-open range as its inclusive bounds, an enumeration as its new
      name or else its original name. */
  function ConvertKind(orig: string, rename: Option<string>, kind: ModernKind): (r: (string, TextOrRange))
    ensures r.0 == orig
    ensures kind.Int? <==> r.1.Range?
    ensures kind.Int? ==> r.1 == Range(kind.start, WrappingSub(kind.end, 1))
    ensures kind.Bool? ==> r.1 == Text("bool")
    ensures kind.Enum? ==> r.1 == Text(if rename.Some? then rename.value else orig)
  {
    match kind
    case Bool => (orig, Text("bool"))
    case Int(start, end) =>
      var (low, high) := InclusiveBounds(start, end);
      (orig, Range(low, high))
    case Enum(_) => (orig, Text(match rename case Some(n) => n case None => orig))
  }

  /** Writing a classified property: its first and last raw values come back
      as the range bounds, whatever they are. */
  lemma ConvertClassified(orig: string, rename: Option<string>, values: seq<string>)
    requires Classify(values).Ok?
    ensures ConvertKind(orig, rename, Classify(values).value) ==
      match Classify(values).value
      case Bool => (orig, Text("bool"))
      case Int(_, _) => (orig, Range(ParseU8(values[0]).value, ParseU8(values[|values| - 1]).value))
      case Enum(_) => (orig, Text(if rename.Some? then rename.value else orig))
  {
    if Classify(values).value.Int? {
      RangeRoundTrip(values);
    }
  }

  /** `From<RawBlockData>`: every kind converted, in order; ids untouched. */
  function ConvertBlock(b: RawBlockData): (r: BlockData)
    ensures r.base == b.base && r.default == b.default
    ensures r.kinds.None? <==> b.kinds.None?
    ensures b.kinds.Some? ==> |r.kinds.value| == |b.kinds.value|
    ensures b.kinds.Some? ==> forall i :: 0 <= i < |b.kinds.value| ==>
      r.kinds.value[i].0 == b.kinds.value[i].0.0
    ensures b.kinds.Some? ==> forall i :: 0 <= i < |b.kinds.value| ==>
      r.kinds.value[i] == ConvertKind(b.kinds.value[i].0.0, b.kinds.value[i].0.1, b.kinds.value[i].1)
  {
    match b.kinds
    case None => BlockData(None, b.base, b.default)
    case Some(ks) =>
      BlockData(Some(seq(|ks|, i requires 0 <= i < |ks| => ConvertKind(ks[i].0.0, ks[i].0.1, ks[i].1))), b.base, b.default)
  }

  /** The enumerations of a property list, in order, with their values. */
  function EnumsOf(props: seq<(string, ModernKind)>): (r: seq<(string, seq<string>)>)
    ensures forall e :: e in r <==> (e.0, Enum(e.1)) in props
    ensures |r| <= |props|
  {
    if |props| == 0 then []
    else
      var rest := EnumsOf(props[1..]);
      assert forall p :: p in props <==> p == props[0] || p in props[1..];
      if props[0].1.Enum? then [(props[0].0, props[0].1.values)] + rest else rest
  }

  /** One property reaches the list exactly when it is an enumeration. */
  lemma EnumsOfSingle(p: (string, ModernKind))
    ensures EnumsOf([p]) == if p.1.Enum? then [(p.0, p.1.values)] else []
  {
    assert [p][1..] == [];
  }

  /** The conversion keeps the order of the enumerations. */
  lemma {:induction false} EnumsOfAppend(a: seq<(string, ModernKind)>, b: seq<(string, ModernKind)>)
    ensures EnumsOf(a + b) == EnumsOf(a) + EnumsOf(b)
    decreases |a|
  {
    if |a| == 0 {
      assert a + b == b;
    } else {
      assert (a + b)[0] == a[0];
      assert (a + b)[1..] == a[1..] + b;
      EnumsOfAppend(a[1..], b);
    }
  }

  /** `From<RawBlockList>`: enumerations only in the property list, every
      block converted under its identifier, in order. */
  function ConvertList(l: RawBlockList): (r: BlockList)
    ensures forall e :: e in r.properties <==> (e.0, Enum(e.1)) in l.properties
    ensures r.properties == EnumsOf(l.properties)
    ensures |r.blocks| == |l.blocks|
    ensures forall i :: 0 <= i < |l.blocks| ==> r.blocks[i] == (l.blocks[i].0, ConvertBlock(l.blocks[i].1))
  {
    BlockList(EnumsOf(l.properties),
      seq(|l.blocks|, i requires 0 <= i < |l.blocks| => (l.blocks[i].0, ConvertBlock(l.blocks[i].1))))
  }

  /** A property list without enumerations converts to an empty one. */
  lemma {:induction false} NoEnumsNoProperties(props: seq<(string, ModernKind)>)
    requires forall i :: 0 <= i < |props| ==> !props[i].1.Enum?
    ensures EnumsOf(props) == []
  {
    if |props| > 0 {
      assert forall i :: 1 <= i < |props| ==> props[i] == props[1..][i - 1];
      NoEnumsNoProperties(props[1..]);
    }
  }
}

=== FILE: modern_property.dfy ===
/** The property-kind classifier of the older block pipeline: booleans are
    recognised by content, integer ranges are half-open `u8` ranges, and a
    corrupted range ends the process. */
module ModernProperty {
  import opened Wrappers
  import opened U8Parse
  import Property

  /** `Int(start, end)` is the half-open `u8` range `start..end`. */
  datatype ModernKind = Bool | Int(start: nat, end: nat) | Enum(values: seq<string>)

  /** The first value is a number but the last is not: the program prints a
      message and exits with the data-error code. */
  datatype Corrupted = Corrupted

  /** `u8` addition as a release build performs it, wrapping past 255. */
  function WrappingAdd(a: nat, b: nat): (r: nat)
    ensures r < 256
    ensures a + b < 256 ==> r == a + b
  {
    (a + b) % 256
  }

  /** `u8` subtraction as a release build performs it, wrapping below 0. */
  function WrappingSub(a: nat, b: nat): (r: nat)
    ensures r < 256
    ensures b <= a < 256 ==> r == a - b
  {
    (a - b) % 256
  }

  predicate HasBoth(values: seq<string>) {
    "true" in values && "false" in values
  }

  function Classify(values: seq<string>): (r: Result<ModernKind, Corrupted>)
    ensures r == Ok(Bool) <==> HasBoth(values)
    ensures r.Ok? && r.value.Int? <==>
      !HasBoth(values) && |values| > 0 && ParseU8(values[0]).Some? && ParseU8(values[|values| - 1]).Some?
    ensures r.Err? <==>
      !HasBoth(values) && |values| > 0 && ParseU8(values[0]).Some? && ParseU8(values[|values| - 1]).None?
    ensures r.Ok? && r.value.Enum? ==> r.value.values == values
  {
    if HasBoth(values) then Ok(Bool)
    else if |values| > 0 && ParseU8(values[0]).Some? then
      match ParseU8(values[|values| - 1])
      case Some(last) => Ok(Int(ParseU8(values[0]).value, WrappingAdd(last, 1)))
      case None => Err(Corrupted)
    else Ok(Enum(values))
  }

  /** The inclusive bounds a half-open range denotes, as the conversion to
      the intermediary format writes them (`end - 1` in `u8`). */
  function InclusiveBounds(start: nat, end: nat): (nat, nat) {
    (start, WrappingSub(end, 1))
  }

  /** The half-open range always gives back the first and last values as
      inclusive bounds, for every `u8` last value: the wrap-around of
      `last + 1` at 255 is undone by the wrap-around of `end - 1`. */
  lemma RangeRoundTrip(values: seq<string>)
    requires Classify(values).Ok? && Classify(values).value.Int?
    ensures InclusiveBounds(Classify(values).value.start, Classify(values).value.end) ==
      (ParseU8(values[0]).value, ParseU8(values[|values| - 1]).value)
  {
    var last := ParseU8(values[|values| - 1]).value;
    if last == 255 {
      assert WrappingAdd(last, 1) == 0;
      assert WrappingSub(0, 1) == 255;
    }
  }

  /** At 255 the half-open end wraps to 0, so the range `start..end` itself
      is empty or inverted even though the inclusive bounds survive. */
  lemma RangeEndWraps(values: seq<string>)
    requires values == ["0", "255"]
    ensures Classify(values) == Ok(Int(0, 0))
  {
    assert values[0] == "0";
    assert ParseU8(values[0]) == Some(0);
    assert values[1][0] == '2' && values[1][1] == '5' && values[1][2] == '5';
    assert DigitsValue(values[1]) == 255 by {
      assert values[1][..2][..1] == "2";
      assert values[1][..2] == "25";
      assert values[1][..|values[1]| - 1] == "25";
    }
    assert ParseU8(values[1]) == Some(255);
  }

  /** Against the live classifier: both revisions agree except where the
      older one finds `"true"` and `"false"` anywhere in the list, which it
      always calls a boolean, and where the live one rejects a list starting
      with `"true"` that the older one calls an enumeration. */
  lemma AgreesWithLive(values: seq<string>)
    ensures match Property.Classify(values)
      case Ok(Bool) => Classify(values) == Ok(Bool)
      case Ok(Int(low, high)) =>
        Classify(values) == if HasBoth(values) then Ok(Bool) else Ok(Int(low, WrappingAdd(high, 1)))
      case Ok(Enum(vs)) => Classify(values) == if HasBoth(values) then Ok(Bool) else Ok(Enum(vs))
      case Err(IntError) => Classify(values) == if HasBoth(values) then Ok(Bool) else Err(Corrupted)
      case Err(_) => Classify(values) == if HasBoth(values) then Ok(Bool) else Ok(Enum(values))
  {
    BooleansAreNotNumbers();
  }

  /** `["false", "true"]` is a boolean here but an enumeration in the live
      classifier. */
  lemma FalseTrueIsBool(values: seq<string>)
    requires values == ["false", "true"]
    ensures Classify(values) == Ok(Bool)
    ensures Property.Classify(values) == Ok(Property.Enum(values))
  {
    assert values[0] == "false" && values[1] == "true";
    BooleansAreNotNumbers();
  }
}

=== FILE: ordered_map.dfy ===
/** Insertion-ordered maps (the program's `LinkedHashMap`) as sequences of
    key/value pairs whose keys are pairwise distinct. */
module OrderedMap {
  import opened Wrappers

  /** The keys of an ordered map, in order. */
  function Keys<K, V>(m: seq<(K, V)>): (ks: seq<K>)
    ensures |ks| == |m|
  {
    seq(|m|, i requires 0 <= i < |m| => m[i].0)
  }

  /** No key occurs twice: the representation invariant of a hash map. */
  predicate DistinctKeys<K(==), V>(m: seq<(K, V)>) {
    |m| == 0 || (m[0].0 !in Keys(m[1..]) && DistinctKeys(m[1..]))
  }

  lemma KeysCons<K, V>(m: seq<(K, V)>)
    requires |m| > 0
    ensures Keys(m) == [m[0].0] + Keys(m[1..])
  {
  }

  /** The first entry with key `k`, as `iter().find_map(..)` and `get` return it. */
  function Lookup<K(==), V>(m: seq<(K, V)>, k: K): (r: Option<V>)
    ensures r.None? <==> k !in Keys(m)
    ensures r.Some? ==> (k, r.value) in m
  {
    if |m| == 0 then None
    else
      KeysCons(m);
      if m[0].0 == k then Some(m[0].1) else Lookup(m[1..], k)
  }

  lemma KeysAppend<K, V>(m: seq<(K, V)>, e: (K, V))
    ensures Keys(m + [e]) == Keys(m) + [e.0]
  {
  }

  /** In a map with distinct keys, the entry found is the only one. */
  lemma {:induction false} LookupDistinct<K, V>(m: seq<(K, V)>, i: nat)
    requires DistinctKeys(m) && i < |m|
    ensures Lookup(m, m[i].0) == Some(m[i].1)
  {
    if i > 0 {
      LookupDistinct(m[1..], i - 1);
      assert Keys(m[1..])[i - 1] == m[i].0;
    }
  }

  /** Position of the first occurrence of `x`, as `iter().position(..)`. */
  function IndexOf<T(==)>(s: seq<T>, x: T): (r: Option<nat>)
    ensures r.None? <==> x !in s
    ensures r.Some? ==> r.value < |s| && s[r.value] == x
    ensures r.Some? ==> forall j :: 0 <= j < r.value ==> s[j] != x
  {
    if |s| == 0 then None
    else if s[0] == x then Some(0)
    else match IndexOf(s[1..], x)
      case None => None
      case Some(i) => Some(i + 1)
  }

  /** The entries whose key is not `k`, in order. */
  function Without<K(==), V>(m: seq<(K, V)>, k: K): (r: seq<(K, V)>)
    ensures |r| <= |m|
    ensures k !in Keys(r)
  {
    if |m| == 0 then []
    else if m[0].0 == k then Without(m[1..], k)
    else
      var r := [m[0]] + Without(m[1..], k);
      KeysCons(r);
      assert r[1..] == Without(m[1..], k);
      r
  }

  lemma {:induction false} WithoutEntries<K, V>(m: seq<(K, V)>, k: K, e: (K, V))
    ensures e in Without(m, k) <==> e in m && e.0 != k
  {
    if |m| > 0 {
      WithoutEntries(m[1..], k, e);
      assert e in m <==> e == m[0] || e in m[1..];
    }
  }

  lemma {:induction false} WithoutKeys<K, V>(m: seq<(K, V)>, k: K, k': K)
    ensures k' in Keys(Without(m, k)) <==> k' in Keys(m) && k' != k
  {
    if k' in Keys(Without(m, k)) {
      var i :| 0 <= i < |Without(m, k)| && Keys(Without(m, k))[i] == k';
      assert Without(m, k)[i] in Without(m, k);
      WithoutEntries(m, k, Without(m, k)[i]);
      EntryKey(m, Without(m, k)[i]);
    }
    if k' in Keys(m) && k' != k {
      var i :| 0 <= i < |m| && Keys(m)[i] == k';
      WithoutEntries(m, k, m[i]);
      EntryKey(Without(m, k), m[i]);
    }
  }

  /** Taking out `k` leaves every other key's value alone. */
  lemma {:induction false} WithoutLookup<K, V>(m: seq<(K, V)>, k: K, k': K)
    requires k' != k
    ensures Lookup(Without(m, k), k') == Lookup(m, k')
  {
    if |m| > 0 {
      WithoutLookup(m[1..], k, k');
      if m[0].0 != k {
        assert ([m[0]] + Without(m[1..], k))[1..] == Without(m[1..], k);
      }
    }
  }

  /** The first entry of a concatenation with key `k`. */
  lemma {:induction false} LookupAppend<K, V>(a: seq<(K, V)>, b: seq<(K, V)>, k: K)
    ensures Lookup(a + b, k) == if k in Keys(a) then Lookup(a, k) else Lookup(b, k)
  {
    if |a| > 0 {
      KeysCons(a);
      assert (a + b)[1..] == a[1..] + b;
      LookupAppend(a[1..], b, k);
    } else {
      assert a + b == b;
    }
  }

  lemma {:induction false} WithoutAppend<K, V>(a: seq<(K, V)>, b: seq<(K, V)>, k: K)
    ensures Without(a + b, k) == Without(a, k) + Without(b, k)
  {
    if |a| > 0 {
      assert (a + b)[1..] == a[1..] + b;
      WithoutAppend(a[1..], b, k);
    } else {
      assert a + b == b;
    }
  }

  lemma {:induction false} WithoutTwice<K, V>(m: seq<(K, V)>, k: K)
    ensures Without(Without(m, k), k) == Without(m, k)
  {
    if |m| > 0 {
      WithoutTwice(m[1..], k);
      if m[0].0 != k {
        assert ([m[0]] + Without(m[1..], k))[1..] == Without(m[1..], k);
      }
    }
  }

  /** `insert` of hashlink's `LinkedHashMap`: an entry already under `k` is
      taken out, and `(k, v)` goes to the back. */
  function Insert<K(==), V>(m: seq<(K, V)>, k: K, v: V): (r: seq<(K, V)>)
    ensures Lookup(r, k) == Some(v)
    ensures |r| > 0 && r[|r| - 1] == (k, v)
    ensures Without(r, k) == Without(m, k)
    ensures |r| <= |m| + 1
  {
    var r := Without(m, k) + [(k, v)];
    LookupAppend(Without(m, k), [(k, v)], k);
    WithoutAppend(Without(m, k), [(k, v)], k);
    WithoutTwice(m, k);
    assert Without([(k, v)], k) == [];
    r
  }

  /** `insert` adds its own key and no other. */
  lemma InsertKeys<K, V>(m: seq<(K, V)>, k: K, v: V, k': K)
    ensures k' in Keys(Insert(m, k, v)) <==> k' == k || k' in Keys(m)
  {
    KeysAppend(Without(m, k), (k, v));
    WithoutKeys(m, k, k');
  }

  /** `insert` leaves the value of every other key alone. */
  lemma InsertOther<K, V>(m: seq<(K, V)>, k: K, v: V, k': K)
    requires k' != k
    ensures Lookup(Insert(m, k, v), k') == Lookup(m, k')
  {
    WithoutKeys(m, k, k');
    LookupAppend(Without(m, k), [(k, v)], k');
    WithoutLookup(m, k, k');
  }

  /** `insert` keeps keys distinct. */
  lemma InsertDistinct<K, V>(m: seq<(K, V)>, k: K, v: V)
    requires DistinctKeys(m)
    ensures DistinctKeys(Insert(m, k, v))
  {
    WithoutDistinct(m, k);
    WithoutKeys(m, k, k);
    AppendDistinct(Without(m, k), (k, v));
  }

  lemma {:induction false} WithoutDistinct<K, V>(m: seq<(K, V)>, k: K)
    requires DistinctKeys(m)
    ensures DistinctKeys(Without(m, k))
  {
    if |m| > 0 {
      WithoutDistinct(m[1..], k);
      if m[0].0 != k {
        var r := [m[0]] + Without(m[1..], k);
        assert r[1..] == Without(m[1..], k);
        WithoutKeys(m[1..], k, m[0].0);
      }
    }
  }

  lemma {:induction false} AppendDistinct<K, V>(m: seq<(K, V)>, e: (K, V))
    requires DistinctKeys(m) && e.0 !in Keys(m)
    ensures DistinctKeys(m + [e])
  {
    if |m| > 0 {
      KeysCons(m);
      assert (m + [e])[1..] == m[1..] + [e];
      AppendDistinct(m[1..], e);
      KeysAppend(m[1..], e);
    }
  }

  lemma {:induction false} WithoutLength<K, V>(m: seq<(K, V)>, k: K)
    requires DistinctKeys(m)
    ensures |Without(m, k)| == if k in Keys(m) then |m| - 1 else |m|
  {
    if |m| > 0 {
      KeysCons(m);
      WithoutLength(m[1..], k);
      if m[0].0 == k {
        WithoutAbsent(m[1..], k);
      }
    } else {
      assert Keys(m) == [];
    }
  }

  /** In a map, `insert` grows it by one exactly when the key is new. */
  lemma InsertLength<K, V>(m: seq<(K, V)>, k: K, v: V)
    requires DistinctKeys(m)
    ensures |Insert(m, k, v)| == if k in Keys(m) then |m| else |m| + 1
  {
    WithoutLength(m, k);
  }

  /** Taking out a key that a prefix of the keys does not mention keeps
      that prefix in front. */
  lemma {:induction false} WithoutPrefix<K, V>(m: seq<(K, V)>, k: K, p: seq<K>)
    requires p <= Keys(m) && k !in p
    ensures p <= Keys(Without(m, k))
  {
    if |p| > 0 {
      KeysCons(m);
      assert m[0].0 == p[0];
      assert p[1..] <= Keys(m[1..]);
      WithoutPrefix(m[1..], k, p[1..]);
      var r := [m[0]] + Without(m[1..], k);
      KeysCons(r);
      assert r[1..] == Without(m[1..], k);
    }
  }

  /** `insert` of a key that a prefix of the keys does not mention keeps
      that prefix in front. */
  lemma InsertPrefix<K, V>(m: seq<(K, V)>, k: K, v: V, p: seq<K>)
    requires p <= Keys(m) && k !in p
    ensures p <= Keys(Insert(m, k, v))
  {
    WithoutPrefix(m, k, p);
    KeysAppend(Without(m, k), (k, v));
    PrefixTransitive(p, Keys(Without(m, k)), Keys(Insert(m, k, v)));
  }

  /** Whatever holds every key after an `insert` holds the inserted key and
      every key before it. */
  lemma InsertCarries<K, V>(m: seq<(K, V)>, k: K, v: V, ks: seq<K>)
    requires forall k' :: k' in Keys(Insert(m, k, v)) ==> k' in ks
    ensures k in ks
    ensures forall k' :: k' in Keys(m) ==> k' in ks
  {
    InsertKeys(m, k, v, k);
    forall k' | k' in Keys(m) ensures k' in ks {
      InsertKeys(m, k, v, k');
    }
  }

  lemma FirstsCons<K, V>(es: seq<(K, V)>, ks: seq<K>)
    requires |es| > 0 && es[0].0 in ks
    requires forall i :: 0 <= i < |es[1..]| ==> es[1..][i].0 in ks
    ensures forall i :: 0 <= i < |es| ==> es[i].0 in ks
  {
    assert forall i :: 1 <= i < |es| ==> es[i] == es[1..][i - 1];
  }

  lemma FirstsTail<K, V>(es: seq<(K, V)>, p: seq<K>)
    requires |es| > 0
    requires forall i :: 0 <= i < |es| ==> es[i].0 !in p
    ensures forall i :: 0 <= i < |es[1..]| ==> es[1..][i].0 !in p
  {
    assert forall i :: 0 <= i < |es[1..]| ==> es[1..][i] == es[i + 1];
  }

  lemma PrefixTransitive<T>(a: seq<T>, b: seq<T>, c: seq<T>)
    requires a <= b && b <= c
    ensures a <= c
  {
    assert a == c[..|a|] by {
      assert b[..|a|] == c[..|a|];
    }
  }

  /** `extend`: inserts every entry of `es` in order. */
  function Extend<K(==), V>(m: seq<(K, V)>, es: seq<(K, V)>): (r: seq<(K, V)>)
    ensures |r| <= |m| + |es|
    decreases |es|
  {
    if |es| == 0 then m
    else Extend(Insert(m, es[0].0, es[0].1), es[1..])
  }

  /** `extend` holds exactly the old keys and those of the extension. */
  lemma {:induction false} ExtendKeys<K, V>(m: seq<(K, V)>, es: seq<(K, V)>, k: K)
    ensures k in Keys(Extend(m, es)) <==> k in Keys(m) || k in Keys(es)
    decreases |es|
  {
    if |es| > 0 {
      KeysCons(es);
      ExtendKeys(Insert(m, es[0].0, es[0].1), es[1..], k);
      InsertKeys(m, es[0].0, es[0].1, k);
    }
  }

  /** In a map, `extend` loses no entry. */
  lemma {:induction false} ExtendLength<K, V>(m: seq<(K, V)>, es: seq<(K, V)>)
    requires DistinctKeys(m)
    ensures |m| <= |Extend(m, es)|
    decreases |es|
  {
    if |es| > 0 {
      InsertLength(m, es[0].0, es[0].1);
      InsertDistinct(m, es[0].0, es[0].1);
      ExtendLength(Insert(m, es[0].0, es[0].1), es[1..]);
    }
  }

  /** The entries whose key does not occur in `ks`, in order. */
  function WithoutAll<K(==), V>(m: seq<(K, V)>, ks: seq<K>): seq<(K, V)> {
    if |m| == 0 then []
    else if m[0].0 in ks then WithoutAll(m[1..], ks)
    else [m[0]] + WithoutAll(m[1..], ks)
  }

  lemma {:induction false} WithoutAllAppend<K, V>(a: seq<(K, V)>, b: seq<(K, V)>, ks: seq<K>)
    ensures WithoutAll(a + b, ks) == WithoutAll(a, ks) + WithoutAll(b, ks)
  {
    if |a| > 0 {
      assert (a + b)[1..] == a[1..] + b;
      WithoutAllAppend(a[1..], b, ks);
    } else {
      assert a + b == b;
    }
  }

  lemma {:induction false} WithoutThenAll<K, V>(m: seq<(K, V)>, k: K, ks: seq<K>)
    ensures WithoutAll(Without(m, k), ks) == WithoutAll(m, [k] + ks)
  {
    if |m| > 0 {
      WithoutThenAll(m[1..], k, ks);
      if m[0].0 != k {
        assert ([m[0]] + Without(m[1..], k))[1..] == Without(m[1..], k);
      }
    }
  }

  /** The order `extend` leaves: the old entries whose keys the extension
      does not mention stay in front, in their order; the extension's keys
      follow as a fresh map would hold them, each where its last
      occurrence put it. */
  lemma {:induction false} ExtendOrder<K, V>(m: seq<(K, V)>, es: seq<(K, V)>)
    ensures Extend(m, es) == WithoutAll(m, Keys(es)) + Extend([], es)
    decreases |es|
  {
    if |es| == 0 {
      WithoutAllNone(m);
    } else {
      var e, rest := es[0], es[1..];
      var m1 := Without(m, e.0) + [e];
      var a, b, c := WithoutAll(m, Keys(es)), WithoutAll([e], Keys(rest)), Extend([], rest);
      assert Extend(m, es) == (a + b) + c by {
        ExtendCons(m, es);
        ExtendOrder(m1, rest);
        WithoutAllAppend(Without(m, e.0), [e], Keys(rest));
        WithoutThenAll(m, e.0, Keys(rest));
        KeysCons(es);
      }
      assert Extend([], es) == b + c by {
        ExtendCons([], es);
        ExtendOrder([e], rest);
      }
      Regroup(Extend(m, es), Extend([], es), a, b, c);
    }
  }

  lemma Regroup<T>(x: seq<T>, y: seq<T>, a: seq<T>, b: seq<T>, c: seq<T>)
    requires x == (a + b) + c && y == b + c
    ensures x == a + y
  {
  }

  lemma ExtendCons<K, V>(m: seq<(K, V)>, es: seq<(K, V)>)
    requires |es| > 0
    ensures Extend(m, es) == Extend(Without(m, es[0].0) + [es[0]], es[1..])
  {
  }

  lemma {:induction false} WithoutAllNone<K, V>(m: seq<(K, V)>)
    ensures WithoutAll(m, []) == m
  {
    if |m| > 0 {
      WithoutAllNone(m[1..]);
    }
  }

  /** `extend` keeps keys distinct. */
  lemma {:induction false} ExtendDistinct<K, V>(m: seq<(K, V)>, es: seq<(K, V)>)
    requires DistinctKeys(m)
    ensures DistinctKeys(Extend(m, es))
    decreases |es|
  {
    if |es| > 0 {
      InsertDistinct(m, es[0].0, es[0].1);
      ExtendDistinct(Insert(m, es[0].0, es[0].1), es[1..]);
    }
  }

  /** The value of the LAST entry with key `k`, if any. */
  function LookupLast<K(==), V>(es: seq<(K, V)>, k: K): Option<V> {
    if |es| == 0 then None
    else if LookupLast(es[1..], k).Some? then LookupLast(es[1..], k)
    else if es[0].0 == k then Some(es[0].1)
    else None
  }

  /** The value a later entry gives a key wins: after `extend`, a key of `es`
      holds the value of its last entry in `es`; any other key keeps its value. */
  lemma {:induction false} ExtendLastWins<K, V>(m: seq<(K, V)>, es: seq<(K, V)>, k: K)
    ensures Lookup(Extend(m, es), k) ==
      (if LookupLast(es, k).Some? then LookupLast(es, k) else Lookup(m, k))
    decreases |es|
  {
    if |es| > 0 {
      ExtendLastWins(Insert(m, es[0].0, es[0].1), es[1..], k);
      if k != es[0].0 {
        InsertOther(m, es[0].0, es[0].1, k);
      }
    }
  }

  /** An entry's key is among the keys. */
  lemma EntryKey<K, V>(m: seq<(K, V)>, e: (K, V))
    requires e in m
    ensures e.0 in Keys(m)
  {
    var i :| 0 <= i < |m| && m[i] == e;
    assert Keys(m)[i] == e.0;
  }

  /** Every entry after `insert` is the inserted one or an old one. */
  lemma InsertEntries<K, V>(m: seq<(K, V)>, k: K, v: V, e: (K, V))
    requires e in Insert(m, k, v)
    ensures e == (k, v) || e in m
  {
    assert e in Without(m, k) || e == (k, v);
    WithoutEntries(m, k, e);
  }

  /** Every entry after `extend` is an old entry or one of the extension. */
  lemma {:induction false} ExtendEntries<K, V>(m: seq<(K, V)>, es: seq<(K, V)>, e: (K, V))
    requires e in Extend(m, es)
    ensures e in m || e in es
    decreases |es|
  {
    if |es| > 0 {
      ExtendEntries(Insert(m, es[0].0, es[0].1), es[1..], e);
      if e in Insert(m, es[0].0, es[0].1) {
        InsertEntries(m, es[0].0, es[0].1, e);
      }
    }
  }

  /** Inserting a new key appends it. */
  lemma InsertNew<K, V>(m: seq<(K, V)>, k: K, v: V)
    requires k !in Keys(m)
    ensures Insert(m, k, v) == m + [(k, v)]
  {
    WithoutAbsent(m, k);
  }

  lemma {:induction false} WithoutAbsent<K, V>(m: seq<(K, V)>, k: K)
    requires k !in Keys(m)
    ensures Without(m, k) == m
  {
    if |m| > 0 {
      KeysCons(m);
      WithoutAbsent(m[1..], k);
    }
  }

  /** The last entry with a key of `es` exists. */
  lemma {:induction false} LookupLastSome<K, V>(es: seq<(K, V)>, k: K)
    requires k in Keys(es)
    ensures LookupLast(es, k).Some?
  {
    KeysCons(es);
    if k != es[0].0 {
      LookupLastSome(es[1..], k);
    }
  }

  /** `extend` loses no key. */
  lemma ExtendKeeps<K, V>(m: seq<(K, V)>, es: seq<(K, V)>, k: K)
    requires k in Keys(m) || k in Keys(es)
    ensures k in Keys(Extend(m, es))
  {
    ExtendLastWins(m, es, k);
    if k in Keys(es) {
      LookupLastSome(es, k);
    }
  }

  /** Extending twice is extending once by the concatenation. */
  lemma {:induction false} ExtendConcat<K, V>(m: seq<(K, V)>, a: seq<(K, V)>, b: seq<(K, V)>)
    ensures Extend(Extend(m, a), b) == Extend(m, a + b)
    decreases |a|
  {
    if |a| > 0 {
      assert (a + b)[0] == a[0];
      assert (a + b)[1..] == a[1..] + b;
      ExtendConcat(Insert(m, a[0].0, a[0].1), a[1..], b);
    } else {
      assert a + b == b;
    }
  }
}

=== FILE: property.dfy ===
/** The property-kind classifier of the live pipeline: an ordered list of raw
    value strings becomes a boolean, an inclusive `u8` range or an
    enumeration kept verbatim. */
module Property {
  import opened Wrappers
  import opened U8Parse

  /** `Int(low, high)` is the inclusive range `[low, high]`; `Enum` keeps its
      values in input order, and two enums are equal only as sequences. */
  datatype PropertyKind = Bool | Int(low: nat, high: nat) | Enum(values: seq<string>)

  datatype KindError =
    | BooleanTooLong      // "true", "false" and more values after them
    | BooleanInvalidType  // "true" first, but the second value is not "false"
    | IntError            // a number first, but the last value is not one

  /** A list whose classification falls through to an enumeration. */
  predicate EnumLike(values: seq<string>) {
    |values| == 0 || (values[0] != "true" && ParseU8(values[0]).None?)
  }

  function Classify(values: seq<string>): (r: Result<PropertyKind, KindError>)
    ensures r == Ok(Bool) <==> values == ["true", "false"]
    ensures r == Err(BooleanTooLong) <==>
      |values| > 2 && values[0] == "true" && values[1] == "false"
    ensures r == Err(BooleanInvalidType) <==>
      |values| > 0 && values[0] == "true" && (|values| == 1 || values[1] != "false")
    ensures r.Ok? && r.value.Int? <==>
      |values| > 0 && ParseU8(values[0]).Some? && ParseU8(values[|values| - 1]).Some?
    ensures r.Ok? && r.value.Int? ==>
      ParseU8(values[0]) == Some(r.value.low) && ParseU8(values[|values| - 1]) == Some(r.value.high)
    ensures r == Err(IntError) <==>
      |values| > 0 && ParseU8(values[0]).Some? && ParseU8(values[|values| - 1]).None?
    ensures r.Ok? && r.value.Enum? <==> EnumLike(values)
    ensures r.Ok? && r.value.Enum? ==> r.value.values == values
  {
    BooleansAreNotNumbers();
    if |values| > 0 && values[0] == "true" then
      if |values| > 1 && values[1] == "false" then
        if |values| == 2 then Ok(Bool) else Err(BooleanTooLong)
      else Err(BooleanInvalidType)
    else if |values| > 0 && ParseU8(values[0]).Some? then
      match ParseU8(values[|values| - 1])
      case Some(last) => Ok(Int(ParseU8(values[0]).value, last))
      case None => Err(IntError)
    else Ok(Enum(values))
  }

  /** A kind the classifier can produce. */
  predicate Producible(k: PropertyKind) {
    match k
    case Bool => true
    case Int(low, high) => low < 256 && high < 256
    case Enum(values) => EnumLike(values)
  }

  /** A canonical raw value list for a kind: the inverse of `Classify`. */
  function RawValues(k: PropertyKind): seq<string> {
    match k
    case Bool => ["true", "false"]
    case Int(low, high) => if low == high then [Show(low)] else [Show(low), Show(high)]
    case Enum(values) => values
  }

  /** Every kind the classifier can produce is recovered from its raw values. */
  lemma ClassifyRawValues(k: PropertyKind)
    requires Producible(k)
    ensures Classify(RawValues(k)) == Ok(k)
  {
    match k
    case Bool =>
    case Int(low, high) =>
      ParseShow(low);
      ParseShow(high);
      assert Show(low)[0] != 't';
    case Enum(values) =>
  }

  /** What the classifier produces is always producible. */
  lemma ClassifyProducible(values: seq<string>)
    requires Classify(values).Ok?
    ensures Producible(Classify(values).value)
  {
  }

  /** A single number is the degenerate range `[v, v]`. */
  lemma SingleNumberRange(v: string)
    requires ParseU8(v).Some?
    ensures Classify([v]) == Ok(Int(ParseU8(v).value, ParseU8(v).value))
  {
  }

  /** Booleans are recognised by position, not by content: `["false", "true"]`
      is an enumeration. */
  lemma FalseTrueIsEnum()
    ensures Classify(["false", "true"]) == Ok(Enum(["false", "true"]))
  {
    BooleansAreNotNumbers();
  }
}

=== FILE: raw_block.dfy ===
/** The raw block model: each block declares its properties (name to ordered
    raw values) and lists every state with its chosen values and numeric id. */
module RawBlock {
  import opened Wrappers
  import opened OrderedMap
  import opened Property

  /** One state: chosen value per property (in the state's own order), its
      id, and whether it is the default state. */
  datatype RawState = RawState(properties: seq<(string, string)>, id: int, isDefault: bool)

  /** One block: declared properties in declared order and all its states. */
  datatype RawBlock = RawBlock(properties: seq<(string, seq<string>)>, states: seq<RawState>)

  /** A state as it appears in the input, with its optional fields. */
  datatype StateInput = StateInput(properties: Option<seq<(string, string)>>, id: int, default: Option<bool>)

  /** A block as it appears in the input, with its optional field. */
  datatype BlockInput = BlockInput(properties: Option<seq<(string, seq<string>)>>, states: seq<StateInput>)

  /** A missing `properties` field reads as an empty map and a missing
      `default` flag as `false`. */
  function StateWithDefaults(s: StateInput): (r: RawState)
    ensures r.id == s.id
    ensures r.isDefault <==> s.default == Some(true)
    ensures s.properties.Some? ==> r.properties == s.properties.value
    ensures s.properties.None? ==> |r.properties| == 0
  {
    RawState(
      match s.properties case Some(p) => p case None => [],
      s.id,
      match s.default case Some(d) => d case None => false)
  }

  function BlockWithDefaults(b: BlockInput): (r: RawBlock)
    ensures |r.states| == |b.states|
    ensures forall i :: 0 <= i < |b.states| ==> r.states[i] == StateWithDefaults(b.states[i])
    ensures b.properties.Some? ==> r.properties == b.properties.value
    ensures b.properties.None? ==> |r.properties| == 0
  {
    RawBlock(
      match b.properties case Some(p) => p case None => [],
      seq(|b.states|, i requires 0 <= i < |b.states| => StateWithDefaults(b.states[i])))
  }

  /** The product of the sizes of the value lists: how many states the
      block must have. */
  function Product(props: seq<(string, seq<string>)>): nat {
    if |props| == 0 then 1 else Product(props[..|props| - 1]) * |props[|props| - 1].1|
  }

  /** `state_count`: multiplies the sizes of the value lists in declared order. */
  method StateCount(b: RawBlock) returns (number: nat)
    ensures number == Product(b.properties)
  {
    number := 1;
    var i := 0;
    while i < |b.properties|
      invariant 0 <= i <= |b.properties|
      invariant number == Product(b.properties[..i])
    {
      assert b.properties[..i + 1][..i] == b.properties[..i];
      number := number * |b.properties[i].1|;
      i := i + 1;
    }
    assert b.properties[..i] == b.properties;
  }

  /** The product is 1 for no properties and 0 exactly when some value list
      is empty. */
  lemma {:induction false} ProductZero(props: seq<(string, seq<string>)>)
    ensures |props| == 0 ==> Product(props) == 1
    ensures Product(props) == 0 <==> exists i :: 0 <= i < |props| && |props[i].1| == 0
  {
    if |props| > 0 {
      var init := props[..|props| - 1];
      ProductZero(init);
      if Product(props) == 0 && |props[|props| - 1].1| != 0 {
        var i :| 0 <= i < |init| && |init[i].1| == 0;
        assert props[i] == init[i];
      }
      if Product(init) == 0 {
        var i :| 0 <= i < |init| && |init[i].1| == 0;
        assert props[i] == init[i];
      }
      forall i | 0 <= i < |props| - 1 && |props[i].1| == 0
        ensures Product(init) == 0
      {
        assert init[i] == props[i];
      }
    }
  }

  /** `properties()`: the declared properties in declared order with their
      kinds; those whose classification fails are silently dropped. */
  function Properties(props: seq<(string, seq<string>)>): (r: seq<(string, PropertyKind)>)
    ensures |r| <= |props|
    ensures forall p :: p in props && Classify(p.1).Ok? ==> (p.0, Classify(p.1).value) in r
    ensures forall e :: e in r ==> exists vs :: (e.0, vs) in props && Classify(vs) == Ok(e.1)
    ensures (forall p :: p in props ==> Classify(p.1).Ok?) ==> |r| == |props|
  {
    if |props| == 0 then []
    else
      var rest := Properties(props[1..]);
      assert forall p :: p in props[1..] ==> p in props;
      match Classify(props[0].1)
      case Ok(k) => [(props[0].0, k)] + rest
      case Err(_) => rest
  }

  /** A single declared property contributes itself with its kind, or
      nothing when it does not classify. */
  lemma PropertiesSingle(p: (string, seq<string>))
    ensures Properties([p]) == if Classify(p.1).Ok? then [(p.0, Classify(p.1).value)] else []
  {
    assert [p][1..] == [];
  }

  /** `filter_map` keeps declared order: the properties of a concatenation
      are those of the first part followed by those of the second. */
  lemma {:induction false} PropertiesAppend(a: seq<(string, seq<string>)>, b: seq<(string, seq<string>)>)
    ensures Properties(a + b) == Properties(a) + Properties(b)
    decreases |a|
  {
    if |a| == 0 {
      assert a + b == b;
    } else {
      assert (a + b)[0] == a[0];
      assert (a + b)[1..] == a[1..] + b;
      PropertiesAppend(a[1..], b);
    }
  }

  /** When every property classifies, the `i`-th result is the `i`-th
      declared property with its kind. */
  lemma {:induction false} PropertiesAllClassify(props: seq<(string, seq<string>)>, i: nat)
    requires forall p :: p in props ==> Classify(p.1).Ok?
    requires i < |props|
    ensures |Properties(props)| == |props|
    ensures Properties(props)[i] == (props[i].0, Classify(props[i].1).value)
  {
    assert props[0] in props;
    if i > 0 {
      assert forall p :: p in props[1..] ==> p in props;
      PropertiesAllClassify(props[1..], i - 1);
    }
  }
}

=== FILE: rules.dfy ===
/** Property renaming: the `"type"` to `"kind"` normalisation and the
    optional rule table that gives an enumeration a canonical name chosen by
    its exact, ordered value list. */
module Rules {
  import opened Wrappers
  import opened Property

  /** Exact ordered value list to canonical property name. */
  type RuleTable = map<seq<string>, string>

  /** `"type"` is a reserved word in the output; it is written `"kind"`. */
  function Normalize(name: string): (r: string)
    ensures r != "type"
    ensures name == "type" ==> r == "kind"
    ensures name != "type" ==> r == name
  {
    if name == "type" then "kind" else name
  }

  /** The rule lookup: an enumeration whose value list is a key of the table
      takes the rule's name; any other property keeps `name`. */
  function RuleName(rules: Option<RuleTable>, name: string, kind: PropertyKind): (r: string)
    ensures rules.Some? && kind.Enum? && kind.values in rules.value ==> r == rules.value[kind.values]
    ensures !(rules.Some? && kind.Enum? && kind.values in rules.value) ==> r == name
  {
    match (rules, kind)
    case (Some(table), Enum(values)) => if values in table then table[values] else name
    case _ => name
  }
}

=== FILE: u8_parse.dfy ===
/** Rust's `str::parse::<u8>`: an optional leading `+`, at least one decimal
    digit, and a value below 256. Leading zeros are accepted. */
module U8Parse {
  import opened Wrappers

  predicate IsDigit(c: char) {
    '0' <= c <= '9'
  }

  predicate AllDigits(s: string) {
    forall i :: 0 <= i < |s| ==> IsDigit(s[i])
  }

  /** The value of a decimal digit string, most significant digit first. */
  function DigitsValue(s: string): nat
    requires AllDigits(s)
  {
    if |s| == 0 then 0
    else DigitsValue(s[..|s| - 1]) * 10 + (s[|s| - 1] as int - '0' as int)
  }

  /** The digits of `s` once an optional leading `+` is removed. */
  function Unsigned(s: string): string {
    if |s| > 0 && s[0] == '+' then s[1..] else s
  }

  function ParseU8(s: string): (r: Option<nat>)
    ensures r.Some? ==> r.value < 256
    ensures r.Some? <==> |Unsigned(s)| > 0 && AllDigits(Unsigned(s)) && DigitsValue(Unsigned(s)) < 256
    ensures r.Some? ==> r.value == DigitsValue(Unsigned(s))
  {
    var digits := Unsigned(s);
    if |digits| == 0 || !AllDigits(digits) then None
    else
      var v := DigitsValue(digits);
      if v < 256 then Some(v) else None
  }

  /** The decimal form of `n`, without leading zeros. */
  function Show(n: nat): (s: string)
    ensures |s| > 0 && AllDigits(s)
  {
    var d := ['0' + (n % 10) as char];
    if n < 10 then d else Show(n / 10) + d
  }

  /** Printing then parsing a decimal gives the number back. */
  lemma {:induction false} ShowValue(n: nat)
    ensures DigitsValue(Show(n)) == n
  {
    var s := Show(n);
    if n >= 10 {
      ShowValue(n / 10);
      assert s[..|s| - 1] == Show(n / 10);
    }
  }

  /** Every `u8` is recognised in its decimal form. */
  lemma ParseShow(n: nat)
    requires n < 256
    ensures ParseU8(Show(n)) == Some(n)
  {
    ShowValue(n);
    assert Show(n)[0] != '+';
  }

  /** A leading `+` and leading zeros do not change the value. */
  lemma ExamplePlusZeros(s: string)
    requires s == "+007"
    ensures ParseU8(s) == Some(7)
  {
    assert Unsigned(s) == "007";
    assert "007"[..2] == "00" && "00"[..1] == "0" && "0"[..0] == "";
  }

  /** Neither `"true"` nor `"false"` is a number. */
  lemma BooleansAreNotNumbers()
    ensures ParseU8("true").None? && ParseU8("false").None?
  {
    assert !IsDigit("true"[0]);
    assert !IsDigit("false"[0]);
  }
}

=== FILE: wrappers.dfy ===
/** Failure-compatible result types shared by every module of the model. */
module Wrappers {

  /** An optional value, as Rust's `Option`. */
  datatype Option<+T> = None | Some(value: T)

  /** A value or an error, as Rust's `Result`; usable with `:-`. */
  datatype Result<+T, +E> = Ok(value: T) | Err(error: E) {

    predicate IsFailure() {
      Err?
    }

    function PropagateFailure<U>(): Result<U, E>
      requires Err?
    {
      Err(error)
    }

    function Extract(): T
      requires Ok?
    {
      value
    }
  }
}
